=== FILE: README.md ===
# Sneaker-store services: table rendering, token gates and profile updates

A Dafny model of the pure decision and string-building logic in three files of
the sneaker-store services:

- **Admin console table renderer** (`format_table` in frontend/cli-admin/main.py).
  It computes one width per header, then emits a separator, the header line,
  another separator, one line per row and a closing separator, all joined with
  newlines. The admin console's order-status menu (`status_map` in
  `order_management_loop`) is modelled next to it.
- **Identity provider** (idp-services/app/main.py). This covers the claims put
  into access and refresh tokens and the extraction of a token from an
  `Authorization: Bearer …` header. It also covers the accept/reject decisions
  of `/verify`, `/refresh`, `/logout`, `/login` and `/admin/login`, together
  with the refresh-token bookkeeping requests each endpoint sends to the user
  service.
- **User service profile endpoints** (user-services/app/main.py). This covers
  the `UPDATE users SET …` statement `update_user_profile` builds and the values
  bound to it. It also covers how both profile handlers turn every error,
  their own 404 and 400 included, into a 500.

Layout, one module per file:

| file | module | models |
|---|---|---|
| wrappers.dfy | `Wrappers` | `Option` / `Result` |
| pystr.dfy | `PyStr` | the Python `str` behaviour the code relies on: `ljust` padding, `sep.join`, `s.split(c)`, `str(int)`, `int(str)` |
| json.dfy | `Json` | decoded JSON values and objects; Python `str()` / `int()` on them |
| table_format.dfy | `TableFormat` | `format_table` |
| status_menu.dfy | `StatusMenu` | the status menu step |
| idp_tokens.dfy | `IdpTokens` | claim builders and `extract_token_from_header` |
| http_errors.dfy | `HttpErrors` | the error responses both services send |
| idp_endpoints.dfy | `IdpEndpoints` | the five identity-provider endpoints |
| user_profile.dfy | `UserProfile` | `get_user_profile`, `update_user_profile` |

Parameters stand in for foreign code and I/O:

- JWT signing is `encode: Object -> string`.
- JWT verification is `decode: string -> Option<Object>`. It yields `None` for
  a bad signature, a malformed token or an expired one.
- `hash_token` (SHA-256) is `hash: string -> string`.
- The clock is `now`, in seconds.
- Every answer from the user service is an `Upstream` value: `Unreachable` for
  a `requests.RequestException`, otherwise the status code and JSON body.
- The database is a function from a `Statement` (SQL text and bound values)
  to a `Db` value: either the rows returned, or completion for an update, or
  the message of the exception raised.

Three behaviours need care:

1. `"Bearer "` on its own extracts the empty token. `/verify` and `/logout`
   reject it because of their `if not token` checks, not because extraction
   failed.
2. With no headers at all, `format_table` draws the separator as `"++"` and the
   header line as `"|"`. So the separator length `sum(widths) + 3n + 1` and
   the equal-line-length and alignment properties hold only when there is at
   least one header. `TableFormat.SeparatorShape` states both cases;
   `TableFormat.LinesMatchSeparator`, `TableFormat.SeparatorBoundaries` and
   `TableFormat.SeparatorAlignsWithLines` are stated for at least one header only.
3. A row with more cells than there are headers makes `format_table` raise
   `IndexError` on `col_widths[i]`. This happens whatever the position of that
   row, so the model returns `Failure(IndexError)` rather than a partial table.

## Model

| member | source | states |
|---|---|---|
| `PyStr.Split` | idp-services/app/main.py:68 | `s.split(c)` has at least one part and no part contains `c`. Joining the parts with `c` rebuilds `s`. The first part is the longest prefix of `s` without `c`. |
| `PyStr.SplitJoin` | frontend/cli-admin/main.py:50 | When no line contains a newline, splitting `"\n".join(lines)` at newlines gives back exactly `lines`. |
| `PyStr.IntToString` | idp-services/app/main.py:36 | `str(n)` is non-empty and starts with `-` exactly for negative `n`. The digits that follow, or the whole string for `n >= 0`, are decimal digits without a leading zero. |
| `PyStr.ParseInt` | idp-services/app/main.py:134 | `int(s)` succeeds exactly on ASCII digits with an optional leading `+` or `-`. Plain digits give their decimal value; a signed input gives the value of its digits, negated for `-`. |
| `PyStr.ParseIntRoundTrip` | idp-services/app/main.py:134 | `int(str(n)) == n` for every integer. This is why the user id survives the `str` in the claims and the `int` in `/refresh`. |
| `PyStr.LJust` | frontend/cli-admin/main.py:38 | `f"{s:<{w}}"` keeps `s` as its prefix, pads only with spaces, never truncates, and has length `max(len(s), w)`. |
| `TableFormat.ColumnWidth` | frontend/cli-admin/main.py:15-21 | A column's width is at least its header's length and at least every cell length in that column, over the rows long enough to have the cell. It equals one of those lengths. |
| `TableFormat.ColumnWidths` | frontend/cli-admin/main.py:15-21 | There is one width per header, and each is the maximum described for `ColumnWidth`. |
| `TableFormat.WidthsBoundColumns` | frontend/cli-admin/main.py:15-21 | Every width is at least its header's length and at least the length of every cell in its column. |
| `TableFormat.Separator` | frontend/cli-admin/main.py:24 | The separator starts and ends with `+`. `SeparatorShape` gives its character set and length, and `SeparatorBoundaries` where each `+` falls. |
| `TableFormat.TableLines` | frontend/cli-admin/main.py:27-49 | The list joined into the table has `len(rows) + 4` lines, plus two when the title is non-empty. |
| `TableFormat.FormatTable` | frontend/cli-admin/main.py:10-50 | With no rows the result is `title + "\nNo data found."`. With rows, it fails exactly when some row has more cells than there are headers. |
| `TableFormat.EmptyRowsIgnoreHeaders` | frontend/cli-admin/main.py:11-12 | With no rows, the output is the same for any headers. |
| `TableFormat.LongRowFails` | frontend/cli-admin/main.py:42-47 | Any row longer than the header list makes the call fail with `IndexError`. |
| `TableFormat.SeparatorShape` | frontend/cli-admin/main.py:24 | The separator holds only `+` and `-`. With `n >= 1` columns its length is `sum(widths) + 3n + 1`; with none it is `"++"`. |
| `TableFormat.FrameShape` | frontend/cli-admin/main.py:24 | `Frame` draws the separator column by column: a `+`, then per column `w + 2` dashes closed by a `+`. The frame is `sum(widths) + 3n + 1` long, holds only `+` and `-`, and has a `+` exactly at the positions `sum(widths[:k]) + 3k` for `k` from 0 to `n`. |
| `TableFormat.SeparatorIsFrame` | frontend/cli-admin/main.py:24 | With at least one column, the joined separator equals the column-by-column frame. |
| `TableFormat.SeparatorBoundaries` | frontend/cli-admin/main.py:24 | With at least one column, the separator has a `+` exactly at each column boundary `sum(widths[:k]) + 3k` and a `-` everywhere else. |
| `TableFormat.LineBars` | frontend/cli-admin/main.py:35-47 | A line whose cells fit their columns has a `|` at every column boundary of its cells. |
| `TableFormat.SeparatorAlignsWithLine` | frontend/cli-admin/main.py:24-47 | Every `+` of the separator stands above a `|` of a line with one fitting cell per column. |
| `TableFormat.SeparatorAlignsWithLines` | frontend/cli-admin/main.py:24-47 | With at least one header, every `+` of the separator stands above a `|` of the header line and of every full data row: the frame lines up. |
| `TableFormat.LineLength` | frontend/cli-admin/main.py:35-39 | A line is `1 + sum of the first k widths + 3k` long when each of its `k` cells fits its column. |
| `TableFormat.LinesMatchSeparator` | frontend/cli-admin/main.py:35-47 | With at least one header, the header line and every full row's line are exactly as long as the separator. A row with fewer cells gives a strictly shorter line. |
| `TableFormat.TableLinesLayout` | frontend/cli-admin/main.py:27-49 | There are `len(rows) + 4` lines, plus two when the title is non-empty; then the title is line 0 and line 1 is empty. The separators, header line and row lines sit in that order. |
| `TableFormat.FormatTableSplitsIntoLines` | frontend/cli-admin/main.py:27-50 | When no title, header or cell contains a newline, the rendered string splits at newlines into exactly those lines. |
| `StatusMenu.StatusChoice` | frontend/cli-admin/main.py:653-662 | A status is found exactly for the inputs `"1"` to `"6"`; every other input yields none. |
| `StatusMenu.MenuKey` | frontend/cli-admin/main.py:645-650 | Every status has a key from the printed menu `"1"`..`"6"`. |
| `StatusMenu.StatusChoiceInvertsMenuKey` | frontend/cli-admin/main.py:645-662 | The lookup picks status `s` exactly when the admin typed the key printed beside `s`, so keys and statuses are in one-to-one correspondence. |
| `StatusMenu.StatusChoiceFollowsMenuOrder` | frontend/cli-admin/main.py:653-660 | Key `k` selects the `k`-th of pending, processing, shipped, delivered, cancelled, refunded. |
| `StatusMenu.NamesDistinct` | frontend/cli-admin/main.py:654-659 | No two statuses are sent under the same name. |
| `StatusMenu.UpdateStatusStep` | frontend/cli-admin/main.py:662-669 | An unknown choice is rejected as "Invalid status choice" whatever the order id. A known choice with an order id that does not parse is rejected as "Invalid order ID". A request goes out exactly when the choice is known and the order id parses as an integer. |
| `StatusMenu.StatusUpdatePath` | frontend/cli-admin/main.py:316 | The path starts with `/orders/` followed by `str(order_id)`. |
| `StatusMenu.StatusUpdatePathNamesStatus` | frontend/cli-admin/main.py:316 | The update request's path ends with the chosen status name. |
| `Json.IntOfStr` | idp-services/app/main.py:36 | `int(str(v))` gives back every integer JSON value. |
| `IdpTokens.CreateAccessClaims` | idp-services/app/main.py:34-43 | Access claims carry exactly `sub`, `email`, `role`, `type`, `exp` and `iat`. `sub` is the user id as a string, `email` and `role` are as given, and `type` is `"access"`. `iat` is the issue time and `exp` is 15 minutes after `iat`. |
| `IdpTokens.CreateRefreshClaims` | idp-services/app/main.py:45-54 | Refresh claims carry the same six keys with the same `sub`, `email` and `role`. `type` is `"refresh"`, `iat` is the issue time and `exp` is 7 days after `iat`. |
| `IdpTokens.ClaimsSymmetric` | idp-services/app/main.py:34-54 | Access and refresh claims agree on `sub` (the user id as a string), `email`, `role` and `iat`. They differ exactly in `type` and `exp`. |
| `IdpTokens.ExtractToken` | idp-services/app/main.py:65-68 | A token is found exactly when the header is present and starts with the case-sensitive `"Bearer "`. The token is the text after the prefix up to the next space or the end. |
| `IdpTokens.ExtractTokenSingleField` | idp-services/app/main.py:65-68 | `"Bearer abc"` yields `"abc"`. |
| `IdpTokens.ExtractTokenFirstFieldOnly` | idp-services/app/main.py:68 | `"Bearer a b"` yields `"a"`: only the first field after the prefix is kept. |
| `IdpTokens.ExtractTokenBarePrefix` | idp-services/app/main.py:68 | `"Bearer "` yields the empty token, not `None`. |
| `IdpTokens.ExtractTokenRejections` | idp-services/app/main.py:66-67 | A missing header, an empty header, `"Bearer"` without the space and the lower-case `"bearer abc"` all yield `None`. |
| `IdpTokens.ExtractTokenFromBearerHeader` | idp-services/app/main.py:65-68 | `"Bearer " + token` yields `token` back for every token without a space. |
| `IdpEndpoints.Verify` | idp-services/app/main.py:114-124 | `/verify` succeeds exactly when the header yields a non-empty token that decodes to an access-type payload, and then returns that payload. A missing or empty token gets 401 "Invalid token"; every other rejection gets 401 "Invalid or expired token". |
| `IdpEndpoints.VerifyRejectsRefreshToken` | idp-services/app/main.py:120-122 | A decodable refresh token is refused by `/verify` with 401 "Invalid or expired token". |
| `IdpEndpoints.VerifyRejectsBarePrefix` | idp-services/app/main.py:116-118 | `"Bearer "` alone is refused with 401 "Invalid token" before any decoding. |
| `IdpEndpoints.IssueSession` | idp-services/app/main.py:77-112 | A session is issued exactly when the credentials check answers 200 with the needed user fields and the store call answers 200. Both tokens then carry the same identity, and `expires_in` is 900. A non-200 credentials answer is a 401, and an unreachable user service is a 503, both with no request sent. A 200 answer lacking the needed fields is an unhandled error (500) with no request. After good credentials exactly one request goes out, the store of the refresh token's hash, whatever its answer. An unreachable store gives 503, and a non-200 store answer gives 500 "Failed to store refresh token". |
| `IdpEndpoints.Login` | idp-services/app/main.py:77-112 | Both `/login` tokens carry the user id, email and role held in the user record. Rejected credentials give 401 "Invalid credentials", and `expires_in` is 900. |
| `IdpEndpoints.AdminLogin` | idp-services/app/main.py:188-223 | `/admin/login` issues both tokens with role `"admin"`. It succeeds even for a record without a role. Rejected credentials give 401 "Invalid admin credentials", and `expires_in` is 900. |
| `IdpEndpoints.AdminLoginIgnoresRecordRole` | idp-services/app/main.py:198-199 | Two user records that differ only in `role` get identical admin tokens and requests. |
| `IdpEndpoints.Refresh` | idp-services/app/main.py:126-166 | `/refresh` refuses any token that fails to decode or whose `type` is not `"refresh"`, with 401 and no request. A `sub` that is missing or not an integer is an unhandled error (500) with no request. It succeeds exactly when the token decodes to a refresh payload with an integer `sub`, an `email` and a `role`, and both the check and the rotation answer 200. The new tokens carry `int(sub)`, that `email` and that `role`, and `expires_in` is 900. For such a payload, an unreachable check gives 503 and an unknown token gives 401, each after the check request alone. After a 200 check exactly two requests go out, whatever the rotation's answer: the check of the old hash, then the rotation from the old hash to the new one. An unreachable rotation gives 503 and a non-200 one gives 500 "Failed to update refresh token". |
| `IdpEndpoints.RefreshRejectsAccessToken` | idp-services/app/main.py:130-132 | A valid access token is refused by `/refresh` with 401, and no request is sent. |
| `IdpEndpoints.LoginThenRefresh` | idp-services/app/main.py:126-163 | A refresh token issued by `/login` for an integer user id is accepted by `/refresh`. The new tokens carry the same user id, email and role. |
| `IdpEndpoints.AdminLoginThenRefresh` | idp-services/app/main.py:126-163 | A refresh token issued by `/admin/login` for an integer user id is accepted by `/refresh`, and the new tokens keep role `"admin"`. |
| `IdpEndpoints.LoginThenVerify` | idp-services/app/main.py:114-124 | An access token issued by `/login` passes `/verify` and yields the claims it was issued with. |
| `IdpEndpoints.Logout` | idp-services/app/main.py:168-186 | `/logout` accepts any non-empty token that decodes to a non-empty payload, whatever its `type`, as long as the user service is reachable. A request goes out exactly for such a token, and it is the delete by the hash of the presented token. Every other token gets 401 "Invalid token" with no request sent. An unreachable user service gives 503. |
| `IdpEndpoints.LogoutRevokesPresentedToken` | idp-services/app/main.py:179-181 | Logging out with an access token succeeds. For an injective hash, the delete names a given token's hash exactly when that token is the presented one. |
| `IdpEndpoints.AccessLogoutSparesRefreshTokens` | idp-services/app/main.py:168-181 | The admin console (frontend/cli-admin/main.py:83-84) and the web client send the access token to `/logout`. For an injective hash, such a logout never names the hash of any refresh token, so no stored refresh token is revoked. |
| `UserProfile.GetUserProfile` | user-services/app/main.py:27-41 | The handler runs the lookup by user id and returns the first row found. No rows gives a 500 with detail "404: User not found". A database exception gives a 500 with its message, and every failure is a 500. |
| `UserProfile.ProfileQuery` | user-services/app/main.py:31-32 | The lookup binds exactly the user id. |
| `UserProfile.ProfileQueryBindsUserId` | user-services/app/main.py:31-32 | The lookup text holds exactly one `%s`, matching its one bound value. |
| `UserProfile.UpdateStatement` | user-services/app/main.py:51-56 | The bound values are the body's values in body order, followed by `user_id` as the final element. |
| `UserProfile.SetClause` | user-services/app/main.py:51 | The SET clause is empty exactly for an empty body. Otherwise it starts with the first key's `key = %s`. |
| `UserProfile.UpdateUserProfile` | user-services/app/main.py:44-63 | The update succeeds exactly for a non-empty body whose statement the database runs without raising, and then answers "User profile updated successfully". An empty body gives a 500 with detail "400: No profile data provided" and executes nothing. An unreadable body gives a 500 carrying the parse error's message, and a database exception gives a 500 carrying its message. |
| `UserProfile.SetClausePlaceholders` | user-services/app/main.py:51 | The SET clause holds one `%s` per key plus every `%s` inside the keys themselves. |
| `UserProfile.UpdatePlaceholdersCount` | user-services/app/main.py:51-56 | The statement holds one `%s` per bound value plus every `%s` inside a key, since keys are pasted into the text verbatim. |
| `UserProfile.UpdatePlaceholdersMatchParams` | user-services/app/main.py:51-57 | With no `%` in any key, the statement holds exactly as many `%s` markers as bound values, that is the number of keys plus one. |
| `UserProfile.KeyWithMarkerBreaksBinding` | user-services/app/main.py:51-56 | For every body, the markers match the bound values exactly when no key contains `%s`. Any key that does leaves more markers than values. |
| `UserProfile.SetClauseListsKeysInOrder` | user-services/app/main.py:51 | When no key contains a comma, splitting the SET clause at commas gives one `key = %s` per body entry, in body order. |

## Left out

- Stock reservation, checkout pricing, order status reconciliation: none of the modelled files implements them. bff-user/app/main.py only proxies `/users`, bff-admin/app/main.py is empty, and inventory-services/app/main.py only reads and prints a product.
- JWT encoding and decoding (HS256 with `JWT_SECRET`, including the fallback secret) and SHA-256 in `hash_token` are foreign library calls. They are parameters, and lemmas that need `decode` to invert `encode` assume it for the specific claims involved.
- HTTP plumbing: FastAPI routing, `Header(None)`, `requests.*` calls, `read_root`, and `get_user_info` (`SELECT * FROM users`) are not modelled. Only the status codes and JSON bodies of the user service's answers enter the model.
- Database access: shared/models.py, as present, defines `connect_to_db` with four parameters and `query_db` with two, and no `execute_db`. user-services/app/main.py calls them with five, three and three arguments. The model treats the database layer as a parameter with the signatures user-services expects. Against the helpers as written, every profile request would end in the broad handler's 500, or the module would fail to import.
- PyStr.ParseInt: accepts an optional sign followed by ASCII digits only. Python's `int()` also accepts surrounding whitespace, underscores between digits and non-ASCII decimal digits. This matters for `int(payload["sub"])` in `/refresh` and `int(order_id)` in the status menu.
- Json.Value: only strings and integers are represented. Floats, booleans, null, arrays and nested objects in a user record, token payload or profile body are not.
- IdpTokens.CreateAccessClaims: `exp` and `iat` come from one `now`. The source calls `utcnow()` twice, and PyJWT turns the datetimes into integer seconds.
- IdpEndpoints.LoginThenVerify: assumes the issued access token is non-empty and contains no space. That is a property of JWT encoding (three base64url segments joined by dots) which the `encode` parameter does not promise. LogoutRevokesPresentedToken and AccessLogoutSparesRefreshTokens assume the same of the presented token.
- IdpEndpoints.IssueSession: `response.json()` failing on a 200 answer is not modelled, and the stored `expires_at` is in seconds rather than an ISO-8601 string.
- IdpEndpoints.Refresh: a `sub` that is not an integer, or a payload missing `email` or `role`, is an unhandled exception. It is modelled as `Internal` (500) without its message.
- UserProfile.UpdateUserProfile: a body that fails to parse, or is not a JSON object, is represented only by the message of the exception raised. That message becomes the 500's detail.
- UserProfile.GetUserProfile: the 500 detail for the handler's own 404 is `str(HTTPException)`, which Starlette renders as `"404: User not found"`. Older Starlette versions rendered it differently.
- `format_table` cells are taken as the strings `str(cell)` produces. Terminal display width (wide characters, emoji in titles) is not modelled; lengths are code-point counts, as Python's `len`.
- The console's menu loops, `input()`, `.strip()` of what was typed, `print`, `clear_terminal` and the HTTP call of `update_order_status` are I/O. Only the choice lookup, the order-id conversion and the request path are modelled.
- Floating-point money arithmetic, email templating (shared/email_utils.py), the React pages and `AuthContext.js`, and the refresh queue of frontend/web-user/src/utils/api.js are outside the modelled core.

=== FILE: http_errors.dfy ===
/** The error responses both services send: an `HTTPException` a handler
    raises, or the plain 500 FastAPI answers when any other exception escapes
    a handler. */
module HttpErrors {
  import opened PyStr

  datatype ErrorReply = HttpError(status: int, detail: string) | Internal
  {
    /** The response's status code. */
    function Status(): int
    {
      match this
      case HttpError(s, _) => s
      case Internal => 500
    }
  }

  /** `str(HTTPException(status, detail))`, which Starlette renders as `"<status>: <detail>"`. */
  function ExceptionText(status: nat, detail: string): string
  {
    NatToDecimal(status) + ": " + detail
  }
}

=== FILE: idp_endpoints.dfy ===
/** The identity provider's endpoints (idp-services/app/main.py): `/login`,
    `/admin/login`, `/verify`, `/refresh` and `/logout`, as accept/reject
    decisions. JWT signing (`encode`), JWT verification (`decode`, which
    returns `None` for a bad signature, a malformed token or an expired one),
    SHA-256 (`hash`) and the clock (`now`) are parameters; each call to the
    user service is represented by the `Upstream` answer it would get. */
module IdpEndpoints {
  import opened Wrappers
  import opened PyStr
  import opened Json
  import opened IdpTokens
  import opened HttpErrors

  /** How a call to the user service ended: `Unreachable` is a
      `requests.RequestException`; otherwise its status code and JSON body. */
  datatype Upstream = Unreachable | Answered(status: int, body: Object)

  const ServiceUnavailable: ErrorReply := HttpError(503, "User service unavailable")

  /** The refresh-token bookkeeping requests sent to the user service. */
  datatype Call =
    | StoreRefreshToken(userId: Value, tokenHash: string, expiresAt: int)   // POST /users/refresh-tokens
    | CheckRefreshToken(tokenHash: string)                                  // POST /users/verify-refresh-token
    | RotateRefreshToken(oldHash: string, newHash: string, expiresAt: int)  // PUT /users/refresh-tokens
    | RevokeRefreshToken(tokenHash: string)                                 // DELETE /users/refresh-tokens

  /** The body of a successful login or refresh. */
  datatype TokenResponse = TokenResponse(
    accessToken: string, refreshToken: string, tokenType: string, expiresIn: int, user: Option<Object>)

  /** An endpoint's answer together with the bookkeeping requests it sent, in order. */
  datatype Reply<T> = Reply(result: Result<T, ErrorReply>, calls: seq<Call>)

  /** The lifetime every token-issuing endpoint reports: `ACCESS_TOKEN_EXPIRY_MINUTES * 60`. */
  const ExpiresIn: int := AccessTokenExpiryMinutes * 60

  // ---------------------------------------------------------------------------
  // /verify

  /** `/verify`: the payload of a non-empty bearer token that decodes and is an
      access token; 401 otherwise. */
  function Verify(authorization: Option<string>, decode: string -> Option<Object>): (r: Result<Object, ErrorReply>)
    ensures r.Success? <==>
      exists t :: ExtractToken(authorization) == Some(t) && t != "" &&
        decode(t).Some? && HasType(decode(t).value, AccessToken)
    ensures r.Success? ==> decode(ExtractToken(authorization).value) == Some(r.value)
    ensures r.Failure? ==> r.error.Status() == 401
    ensures (ExtractToken(authorization).None? || ExtractToken(authorization) == Some("")) ==>
      r == Failure(HttpError(401, "Invalid token"))
    ensures ExtractToken(authorization).Some? && ExtractToken(authorization).value != "" && r.Failure? ==>
      r == Failure(HttpError(401, "Invalid or expired token"))
  {
    var token := ExtractToken(authorization);
    if token.None? || token.value == "" then Failure(HttpError(401, "Invalid token"))
    else
      var payload := decode(token.value);
      if payload.None? || |payload.value| == 0 || !HasType(payload.value, AccessToken) then
        Failure(HttpError(401, "Invalid or expired token"))
      else Success(payload.value)
  }

  /** A refresh token is no good for `/verify`, however valid it is. */
  lemma VerifyRejectsRefreshToken(authorization: Option<string>, decode: string -> Option<Object>)
    requires ExtractToken(authorization).Some? && ExtractToken(authorization).value != ""
    requires var d := decode(ExtractToken(authorization).value); d.Some? && HasType(d.value, RefreshToken)
    ensures Verify(authorization, decode) == Failure(HttpError(401, "Invalid or expired token"))
  {
  }

  /** `"Bearer "` alone is rejected before anything is decoded. */
  lemma VerifyRejectsBarePrefix(decode: string -> Option<Object>)
    ensures Verify(Some("Bearer "), decode) == Failure(HttpError(401, "Invalid token"))
  {
    ExtractTokenBarePrefix();
  }

  // ---------------------------------------------------------------------------
  // /login and /admin/login

  /** Where the `role` claim comes from: the user record (`/login`) or a fixed
      value (`/admin/login` always issues `"admin"`). */
  datatype RoleSource = RoleFromRecord | FixedRole(role: string)

  /** True iff the user record holds every field the token builders read. */
  predicate HasTokenFields(user: Object, roles: RoleSource)
  {
    "user_id" in user && "email" in user && (roles.RoleFromRecord? ==> "role" in user)
  }

  function RoleClaim(user: Object, roles: RoleSource): Value
    requires HasTokenFields(user, roles)
  {
    match roles
    case RoleFromRecord => user["role"]
    case FixedRole(role) => JStr(role)
  }

  /** The shared body of `/login` and `/admin/login`: check the credentials with
      the user service, issue both tokens, store the refresh token's hash. */
  function IssueSession(credentials: Upstream, store: Upstream, roles: RoleSource, rejected: string,
                        encode: Object -> string, hash: string -> string, now: int): (r: Reply<TokenResponse>)
    ensures r.result.Success? <==>
      && credentials.Answered? && credentials.status == 200 && HasTokenFields(credentials.body, roles)
      && store.Answered? && store.status == 200
    ensures r.result.Success? ==>
      var user := credentials.body;
      var role := RoleClaim(user, roles);
      && r.result.value.accessToken == encode(CreateAccessClaims(user["user_id"], user["email"], role, now))
      && r.result.value.refreshToken == encode(CreateRefreshClaims(user["user_id"], user["email"], role, now))
      && r.result.value.tokenType == "bearer"
      && r.result.value.expiresIn == 900
      && r.result.value.user == Some(user)
      && r.calls == [StoreRefreshToken(user["user_id"], hash(r.result.value.refreshToken), now + RefreshLifetime)]
    ensures credentials.Answered? && credentials.status != 200 ==>
      r == Reply(Failure(HttpError(401, rejected)), [])
    ensures credentials.Unreachable? ==> r == Reply(Failure(ServiceUnavailable), [])
    ensures credentials.Answered? && credentials.status == 200 && !HasTokenFields(credentials.body, roles) ==>
      r == Reply(Failure(Internal), [])
    ensures credentials.Answered? && credentials.status == 200 && HasTokenFields(credentials.body, roles) ==>
      var user := credentials.body;
      var refresh := encode(CreateRefreshClaims(user["user_id"], user["email"], RoleClaim(user, roles), now));
      && r.calls == [StoreRefreshToken(user["user_id"], hash(refresh), now + RefreshLifetime)]
      && (store.Unreachable? ==> r.result == Failure(ServiceUnavailable))
      && (store.Answered? && store.status != 200 ==> r.result == Failure(HttpError(500, "Failed to store refresh token")))
  {
    match credentials
    case Unreachable => Reply(Failure(ServiceUnavailable), [])
    case Answered(status, user) =>
      if status != 200 then Reply(Failure(HttpError(401, rejected)), [])
      else if !HasTokenFields(user, roles) then Reply(Failure(Internal), [])
      else
        var role := RoleClaim(user, roles);
        var access := encode(CreateAccessClaims(user["user_id"], user["email"], role, now));
        var refresh := encode(CreateRefreshClaims(user["user_id"], user["email"], role, now));
        var calls := [StoreRefreshToken(user["user_id"], hash(refresh), now + RefreshLifetime)];
        match store
        case Unreachable => Reply(Failure(ServiceUnavailable), calls)
        case Answered(storeStatus, _) =>
          if storeStatus != 200 then Reply(Failure(HttpError(500, "Failed to store refresh token")), calls)
          else Reply(Success(TokenResponse(access, refresh, "bearer", ExpiresIn, Some(user))), calls)
  }

  /** `/login`: tokens carry the role stored in the user record. */
  function Login(credentials: Upstream, store: Upstream, encode: Object -> string, hash: string -> string, now: int): (r: Reply<TokenResponse>)
    ensures r.result.Success? ==>
      && credentials.Answered? && HasTokenFields(credentials.body, RoleFromRecord)
      && var user := credentials.body;
      && r.result.value.accessToken == encode(CreateAccessClaims(user["user_id"], user["email"], user["role"], now))
      && r.result.value.refreshToken == encode(CreateRefreshClaims(user["user_id"], user["email"], user["role"], now))
      && r.result.value.expiresIn == 900
    ensures credentials.Answered? && credentials.status != 200 ==>
      r.result == Failure(HttpError(401, "Invalid credentials"))
  {
    IssueSession(credentials, store, RoleFromRecord, "Invalid credentials", encode, hash, now)
  }

  /** `/admin/login`: both tokens carry role `"admin"`, whatever role the user
      record holds, and even when it holds none. */
  function AdminLogin(credentials: Upstream, store: Upstream, encode: Object -> string, hash: string -> string, now: int): (r: Reply<TokenResponse>)
    ensures r.result.Success? <==>
      && credentials.Answered? && credentials.status == 200
      && "user_id" in credentials.body && "email" in credentials.body
      && store.Answered? && store.status == 200
    ensures r.result.Success? ==>
      var user := credentials.body;
      && r.result.value.accessToken == encode(CreateAccessClaims(user["user_id"], user["email"], JStr("admin"), now))
      && r.result.value.refreshToken == encode(CreateRefreshClaims(user["user_id"], user["email"], JStr("admin"), now))
      && r.result.value.expiresIn == 900
    ensures credentials.Answered? && credentials.status != 200 ==>
      r.result == Failure(HttpError(401, "Invalid admin credentials"))
  {
    IssueSession(credentials, store, FixedRole("admin"), "Invalid admin credentials", encode, hash, now)
  }

  /** Two user records that differ only in their `role` give identical admin sessions. */
  lemma AdminLoginIgnoresRecordRole(status: int, user: Object, role1: Value, role2: Value, store: Upstream,
                                    encode: Object -> string, hash: string -> string, now: int)
    requires "user_id" in user && "email" in user
    ensures
      var r1 := AdminLogin(Answered(status, user["role" := role1]), store, encode, hash, now);
      var r2 := AdminLogin(Answered(status, user["role" := role2]), store, encode, hash, now);
      && r1.calls == r2.calls
      && r1.result.Success? == r2.result.Success?
      && (r1.result.Success? ==>
            (r1.result.value.accessToken == r2.result.value.accessToken
             && r1.result.value.refreshToken == r2.result.value.refreshToken))
  {
  }

  // ---------------------------------------------------------------------------
  // /refresh

  /** The claims `/refresh` reads from a decoded refresh token: `type` is
      `"refresh"`, `sub` converts with `int()`, and `email` and `role` are present. */
  predicate Refreshable(payload: Object)
  {
    && HasType(payload, RefreshToken)
    && "sub" in payload && Int(payload["sub"]).Some?
    && "email" in payload && "role" in payload
  }

  /** `/refresh`: a decodable refresh token whose hash the user service still
      knows is exchanged for a fresh pair naming the same user, email and
      role, and the stored hash is rotated. */
  function Refresh(refreshToken: string, check: Upstream, update: Upstream, decode: string -> Option<Object>,
                   encode: Object -> string, hash: string -> string, now: int): (r: Reply<TokenResponse>)
    ensures (decode(refreshToken).None? || !HasType(decode(refreshToken).value, RefreshToken)) ==>
      r == Reply(Failure(HttpError(401, "Invalid refresh token")), [])
    ensures r.result.Success? <==>
      && decode(refreshToken).Some? && Refreshable(decode(refreshToken).value)
      && check.Answered? && check.status == 200
      && update.Answered? && update.status == 200
    ensures r.result.Success? ==>
      var payload := decode(refreshToken).value;
      var userId := JInt(Int(payload["sub"]).value);
      && r.result.value.accessToken == encode(CreateAccessClaims(userId, payload["email"], payload["role"], now))
      && r.result.value.refreshToken == encode(CreateRefreshClaims(userId, payload["email"], payload["role"], now))
      && r.result.value.tokenType == "bearer"
      && r.result.value.expiresIn == 900 && r.result.value.user == None
      && r.calls == [CheckRefreshToken(hash(refreshToken)),
                     RotateRefreshToken(hash(refreshToken), hash(r.result.value.refreshToken), now + RefreshLifetime)]
    ensures decode(refreshToken).Some? && Refreshable(decode(refreshToken).value) ==>
      && (check.Unreachable? ==> r == Reply(Failure(ServiceUnavailable), [CheckRefreshToken(hash(refreshToken))]))
      && (check.Answered? && check.status != 200 ==>
            r == Reply(Failure(HttpError(401, "Invalid refresh token")), [CheckRefreshToken(hash(refreshToken))]))
      && (check.Answered? && check.status == 200 ==>
            var p := decode(refreshToken).value;
            var refresh := encode(CreateRefreshClaims(JInt(Int(p["sub"]).value), p["email"], p["role"], now));
            && r.calls == [CheckRefreshToken(hash(refreshToken)),
                           RotateRefreshToken(hash(refreshToken), hash(refresh), now + RefreshLifetime)]
            && (update.Unreachable? ==> r.result == Failure(ServiceUnavailable))
            && (update.Answered? && update.status != 200 ==>
                  r.result == Failure(HttpError(500, "Failed to update refresh token"))))
    ensures r.calls != [] ==> r.calls[0] == CheckRefreshToken(hash(refreshToken))
    ensures var d := decode(refreshToken);
      d.Some? && HasType(d.value, RefreshToken) && ("sub" !in d.value || Int(d.value["sub"]).None?) ==>
        r == Reply(Failure(Internal), [])
    ensures var d := decode(refreshToken);
      && d.Some? && HasType(d.value, RefreshToken) && "sub" in d.value && Int(d.value["sub"]).Some?
      && check.Answered? && check.status == 200 && ("email" !in d.value || "role" !in d.value) ==>
        r == Reply(Failure(Internal), [CheckRefreshToken(hash(refreshToken))])
  {
    var decoded := decode(refreshToken);
    if decoded.None? || |decoded.value| == 0 || !HasType(decoded.value, RefreshToken) then
      Reply(Failure(HttpError(401, "Invalid refresh token")), [])
    else
      var payload := decoded.value;
      if "sub" !in payload || Int(payload["sub"]).None? then Reply(Failure(Internal), [])
      else
        var userId := Int(payload["sub"]).value;
        var calls := [CheckRefreshToken(hash(refreshToken))];
        match check
        case Unreachable => Reply(Failure(ServiceUnavailable), calls)
        case Answered(status, _) =>
          if status != 200 then Reply(Failure(HttpError(401, "Invalid refresh token")), calls)
          else if "email" !in payload || "role" !in payload then Reply(Failure(Internal), calls)
          else
            var access := encode(CreateAccessClaims(JInt(userId), payload["email"], payload["role"], now));
            var refresh := encode(CreateRefreshClaims(JInt(userId), payload["email"], payload["role"], now));
            var rotated := calls + [RotateRefreshToken(hash(refreshToken), hash(refresh), now + RefreshLifetime)];
            match update
            case Unreachable => Reply(Failure(ServiceUnavailable), rotated)
            case Answered(updateStatus, _) =>
              if updateStatus != 200 then Reply(Failure(HttpError(500, "Failed to update refresh token")), rotated)
              else Reply(Success(TokenResponse(access, refresh, "bearer", ExpiresIn, None)), rotated)
  }

  /** An access token, however valid, is refused by `/refresh` without any call
      to the user service. */
  lemma RefreshRejectsAccessToken(token: string, check: Upstream, update: Upstream, decode: string -> Option<Object>,
                                  encode: Object -> string, hash: string -> string, now: int)
    requires decode(token).Some? && HasType(decode(token).value, AccessToken)
    ensures Refresh(token, check, update, decode, encode, hash, now) == Reply(Failure(HttpError(401, "Invalid refresh token")), [])
  {
  }

  /** A refresh token issued by a login is accepted by `/refresh` (given the
      user service still knows it), and the new tokens name the same user,
      email and role as the old ones. */
  lemma LoginThenRefresh(credentials: Upstream, store: Upstream, check: Upstream, update: Upstream,
                         decode: string -> Option<Object>, encode: Object -> string, hash: string -> string,
                         now: int, later: int)
    requires Login(credentials, store, encode, hash, now).result.Success?
    requires "user_id" in credentials.body && credentials.body["user_id"].JInt?
    requires var user := credentials.body;
      var claims := CreateRefreshClaims(user["user_id"], user["email"], user["role"], now);
      decode(encode(claims)) == Some(claims)
    requires check == Answered(200, map[]) && update == Answered(200, map[])
    ensures
      var user := credentials.body;
      var issued := Login(credentials, store, encode, hash, now).result.value;
      var r := Refresh(issued.refreshToken, check, update, decode, encode, hash, later);
      && r.result.Success?
      && r.result.value.accessToken == encode(CreateAccessClaims(user["user_id"], user["email"], user["role"], later))
      && r.result.value.refreshToken == encode(CreateRefreshClaims(user["user_id"], user["email"], user["role"], later))
  {
    var user := credentials.body;
    IntOfStr(user["user_id"].i);
  }

  /** The same for `/admin/login`: its refresh token is accepted by `/refresh`,
      and the new tokens keep role `"admin"`. */
  lemma AdminLoginThenRefresh(credentials: Upstream, store: Upstream, check: Upstream, update: Upstream,
                              decode: string -> Option<Object>, encode: Object -> string, hash: string -> string,
                              now: int, later: int)
    requires AdminLogin(credentials, store, encode, hash, now).result.Success?
    requires "user_id" in credentials.body && credentials.body["user_id"].JInt?
    requires var user := credentials.body;
      var claims := CreateRefreshClaims(user["user_id"], user["email"], JStr("admin"), now);
      decode(encode(claims)) == Some(claims)
    requires check == Answered(200, map[]) && update == Answered(200, map[])
    ensures
      var user := credentials.body;
      var issued := AdminLogin(credentials, store, encode, hash, now).result.value;
      var r := Refresh(issued.refreshToken, check, update, decode, encode, hash, later);
      && r.result.Success?
      && r.result.value.accessToken == encode(CreateAccessClaims(user["user_id"], user["email"], JStr("admin"), later))
      && r.result.value.refreshToken == encode(CreateRefreshClaims(user["user_id"], user["email"], JStr("admin"), later))
  {
    var user := credentials.body;
    IntOfStr(user["user_id"].i);
  }

  // ---------------------------------------------------------------------------
  // /logout

  /** `/logout`: any non-empty bearer token that decodes to a non-empty payload
      is accepted, whatever its `type`; the delete request names the hash of
      the presented token, and its answer is ignored unless unreachable. */
  function Logout(authorization: Option<string>, delete: Upstream, decode: string -> Option<Object>,
                  hash: string -> string): (r: Reply<string>)
    ensures r.result.Success? <==>
      exists t :: ExtractToken(authorization) == Some(t) && t != "" &&
        decode(t).Some? && |decode(t).value| > 0 && delete.Answered?
    ensures r.calls != [] <==>
      exists t :: ExtractToken(authorization) == Some(t) && t != "" && decode(t).Some? && |decode(t).value| > 0
    ensures r.calls != [] ==>
      ExtractToken(authorization).Some? && r.calls == [RevokeRefreshToken(hash(ExtractToken(authorization).value))]
    ensures r.calls == [] ==> r.result == Failure(HttpError(401, "Invalid token"))
    ensures r.calls != [] && delete.Unreachable? ==> r.result == Failure(ServiceUnavailable)
    ensures r.result.Success? ==> r.result.value == "Logout successful"
  {
    var token := ExtractToken(authorization);
    if token.None? || token.value == "" then Reply(Failure(HttpError(401, "Invalid token")), [])
    else
      var payload := decode(token.value);
      if payload.None? || |payload.value| == 0 then Reply(Failure(HttpError(401, "Invalid token")), [])
      else
        var calls := [RevokeRefreshToken(hash(token.value))];
        if delete.Unreachable? then Reply(Failure(ServiceUnavailable), calls)
        else Reply(Success("Logout successful"), calls)
  }

  /** Logging out with an access token revokes the hash of that access token,
      which names a stored refresh token only if the two tokens are the same
      string (for an injective hash). */
  lemma LogoutRevokesPresentedToken(token: string, storedRefresh: string, delete: Upstream,
                                    decode: string -> Option<Object>, hash: string -> string)
    requires ' ' !in token && token != ""
    requires decode(token).Some? && HasType(decode(token).value, AccessToken)
    requires delete.Answered?
    requires forall a, b :: hash(a) == hash(b) ==> a == b
    ensures var r := Logout(Some(BearerPrefix + token), delete, decode, hash);
      && r.result == Success("Logout successful")
      && (r.calls == [RevokeRefreshToken(hash(storedRefresh))] <==> token == storedRefresh)
  {
    ExtractTokenFromBearerHeader(token);
  }

  /** Both clients send the access token to `/logout`, so the delete it causes
      never names a stored refresh token: for an injective hash, no refresh
      token's hash is revoked by a logout with an access token. */
  lemma AccessLogoutSparesRefreshTokens(token: string, storedRefresh: string, delete: Upstream,
                                        decode: string -> Option<Object>, hash: string -> string)
    requires ' ' !in token && token != ""
    requires decode(token).Some? && HasType(decode(token).value, AccessToken)
    requires decode(storedRefresh).Some? && HasType(decode(storedRefresh).value, RefreshToken)
    requires delete.Answered?
    requires forall a, b :: hash(a) == hash(b) ==> a == b
    ensures var r := Logout(Some(BearerPrefix + token), delete, decode, hash);
      r.result.Success? && r.calls != [RevokeRefreshToken(hash(storedRefresh))]
  {
    LogoutRevokesPresentedToken(token, storedRefresh, delete, decode, hash);
  }

  /** An access token issued by a login passes `/verify` and yields its claims. */
  lemma LoginThenVerify(credentials: Upstream, store: Upstream, decode: string -> Option<Object>,
                        encode: Object -> string, hash: string -> string, now: int)
    requires Login(credentials, store, encode, hash, now).result.Success?
    requires var token := Login(credentials, store, encode, hash, now).result.value.accessToken;
      ' ' !in token && token != ""
    requires var user := credentials.body;
      var claims := CreateAccessClaims(user["user_id"], user["email"], user["role"], now);
      decode(encode(claims)) == Some(claims)
    ensures
      var user := credentials.body;
      var token := Login(credentials, store, encode, hash, now).result.value.accessToken;
      Verify(Some(BearerPrefix + token), decode) == Success(CreateAccessClaims(user["user_id"], user["email"], user["role"], now))
  {
    var token := Login(credentials, store, encode, hash, now).result.value.accessToken;
    ExtractTokenFromBearerHeader(token);
  }
}

=== FILE: idp_tokens.dfy ===
/** Token helpers of the identity provider (idp-services/app/main.py): the
    claim sets put into access and refresh tokens, and the extraction of a
    token from an `Authorization: Bearer <token>` header. JWT signing and
    verification are not modelled here; the endpoints take them as parameters. */
module IdpTokens {
  import opened Wrappers
  import opened PyStr
  import opened Json

  const AccessTokenExpiryMinutes: nat := 15
  const RefreshTokenExpiryDays: nat := 7

  /** Lifetimes in seconds. */
  const AccessLifetime: nat := AccessTokenExpiryMinutes * 60
  const RefreshLifetime: nat := RefreshTokenExpiryDays * 24 * 60 * 60

  const BearerPrefix: string := "Bearer "

  /** The claims every issued token carries. */
  const ClaimNames: set<string> := {"sub", "email", "role", "type", "exp", "iat"}

  datatype TokenType = AccessToken | RefreshToken
  {
    /** The value of the `type` claim. */
    function Name(): string
    {
      match this
      case AccessToken => "access"
      case RefreshToken => "refresh"
    }
  }

  /** `payload.get("type") == t`. */
  predicate HasType(payload: Object, t: TokenType)
  {
    "type" in payload && payload["type"] == JStr(t.Name())
  }

  /** The claims of `create_access_token(user_id, email, role)` issued at `now`
      (seconds since the epoch). */
  function CreateAccessClaims(userId: Value, email: Value, role: Value, now: int): (p: Object)
    ensures HasType(p, AccessToken)
    ensures p.Keys == ClaimNames
    ensures p["sub"] == JStr(Str(userId)) && p["email"] == email && p["role"] == role
    ensures p["iat"] == JInt(now) && p["exp"] == JInt(p["iat"].i + AccessLifetime)
  {
    map["sub" := JStr(Str(userId)), "email" := email, "role" := role, "type" := JStr("access"),
        "exp" := JInt(now + AccessTokenExpiryMinutes * 60), "iat" := JInt(now)]
  }

  /** The claims of `create_refresh_token(user_id, email, role)` issued at `now`. */
  function CreateRefreshClaims(userId: Value, email: Value, role: Value, now: int): (p: Object)
    ensures HasType(p, RefreshToken)
    ensures p.Keys == ClaimNames
    ensures p["sub"] == JStr(Str(userId)) && p["email"] == email && p["role"] == role
    ensures p["iat"] == JInt(now) && p["exp"] == JInt(p["iat"].i + RefreshLifetime)
  {
    map["sub" := JStr(Str(userId)), "email" := email, "role" := role, "type" := JStr("refresh"),
        "exp" := JInt(now + RefreshTokenExpiryDays * 24 * 60 * 60), "iat" := JInt(now)]
  }

  /** Access and refresh claims carry the same keys, the same `sub` (the user id
      as a string), `email`, `role` and `iat`; they differ only in `type` and `exp`. */
  lemma ClaimsSymmetric(userId: Value, email: Value, role: Value, now: int)
    ensures var a := CreateAccessClaims(userId, email, role, now);
      var r := CreateRefreshClaims(userId, email, role, now);
      && a.Keys == r.Keys
      && a - {"type", "exp"} == r - {"type", "exp"}
      && a["sub"] == JStr(Str(userId)) && a["email"] == email && a["role"] == role
      && a["type"] != r["type"] && a["exp"] != r["exp"]
  {
  }

  /** `extract_token_from_header(authorization)`: `None` for a missing or empty
      header or one without the case-sensitive `"Bearer "` prefix; otherwise the
      second field of the header split at single spaces, which is the text
      after the prefix up to the next space. */
  function ExtractToken(authorization: Option<string>): (r: Option<string>)
    ensures r.Some? <==> authorization.Some? && StartsWith(authorization.value, BearerPrefix)
    ensures r.Some? ==>
      var rest := authorization.value[|BearerPrefix|..];
      && |r.value| <= |rest| && rest[..|r.value|] == r.value
      && ' ' !in r.value
      && (|r.value| < |rest| ==> rest[|r.value|] == ' ')
  {
    if authorization.None? || authorization.value == "" || !StartsWith(authorization.value, BearerPrefix) then None
    else
      var header := authorization.value;
      var rest := header[|BearerPrefix|..];
      assert header == "Bearer" + [' '] + rest;
      SplitAtFirstSeparator("Bearer", ' ', rest);
      Some(Split(header, ' ')[1])
  }

  lemma ExtractTokenSingleField()
    ensures ExtractToken(Some("Bearer abc")) == Some("abc")
  {
    ExtractTokenFromBearerHeader("abc");
    assert BearerPrefix + "abc" == "Bearer abc";
  }

  /** Only the first space-separated field after the prefix is returned. */
  lemma ExtractTokenFirstFieldOnly()
    ensures ExtractToken(Some("Bearer a b")) == Some("a")
  {
    var header := "Bearer a b";
    var tail := "a" + [' '] + "b";
    assert header == "Bearer" + [' '] + tail;
    SplitAtFirstSeparator("Bearer", ' ', tail);
    SplitAtFirstSeparator("a", ' ', "b");
  }

  /** A bare prefix yields the empty token rather than `None`. */
  lemma ExtractTokenBarePrefix()
    ensures ExtractToken(Some("Bearer ")) == Some("")
  {
    assert "Bearer " == "Bearer" + [' '] + "";
    SplitAtFirstSeparator("Bearer", ' ', "");
    SplitWithoutSeparator("", ' ');
  }

  lemma ExtractTokenRejections()
    ensures ExtractToken(Some("bearer abc")) == None
    ensures ExtractToken(Some("Bearer")) == None
    ensures ExtractToken(Some("")) == None
    ensures ExtractToken(None) == None
  {
    assert "bearer abc"[0] != BearerPrefix[0];
  }

  /** A header built as `"Bearer " + token` yields `token` back whenever the
      token has no space in it. */
  lemma ExtractTokenFromBearerHeader(token: string)
    requires ' ' !in token
    ensures ExtractToken(Some(BearerPrefix + token)) == Some(token)
  {
    var header := BearerPrefix + token;
    assert header[..|BearerPrefix|] == BearerPrefix;
    assert header[|BearerPrefix|..] == token;
    assert StartsWith(header, BearerPrefix);
    var r := ExtractToken(Some(header));
    assert r.Some?;
    var t := r.value;
    assert |t| <= |token| && token[..|t|] == t;
    assert forall k :: 0 <= k < |token| ==> token[k] != ' ';
    assert |t| == |token|;
    assert token[..|t|] == token;
  }
}

=== FILE: json.dfy ===
/** The JSON values the services exchange: decoded token payloads, user
    records and request bodies. Only strings and integers are represented. */
module Json {
  import opened Wrappers
  import opened PyStr

  datatype Value = JStr(s: string) | JInt(i: int)

  /** A JSON object as Python sees it after decoding: a `dict` keyed by strings. */
  type Object = map<string, Value>

  /** Python's `str(v)`. */
  function Str(v: Value): string
  {
    match v
    case JStr(s) => s
    case JInt(n) => IntToString(n)
  }

  /** Python's `int(v)`; `None` stands for the `ValueError` it raises. */
  function Int(v: Value): Option<int>
  {
    match v
    case JStr(s) => ParseInt(s)
    case JInt(n) => Some(n)
  }

  /** `int(str(v)) == v` for every integer value. */
  lemma IntOfStr(n: int)
    ensures Int(JStr(Str(JInt(n)))) == Some(n)
  {
    ParseIntRoundTrip(n);
  }
}

=== FILE: pystr.dfy ===
/** The pieces of Python's `str` behaviour the services rely on: `len`,
    `startswith`, `ljust` padding, `sep.join(parts)`, `s.split(c)` with an
    explicit one-character separator, and `str(n)` / `int(s)` on integers. */
module PyStr {
  import opened Wrappers

  function Max(a: int, b: int): int
  {
    if a < b then b else a
  }

  /** `c * n`: `n` copies of `c`. */
  function Repeat(c: char, n: nat): (r: string)
    ensures |r| == n
    ensures forall k :: 0 <= k < n ==> r[k] == c
  {
    seq(n, _ => c)
  }

  predicate StartsWith(s: string, prefix: string)
  {
    |prefix| <= |s| && s[..|prefix|] == prefix
  }

  /** A string starts with any string it is built from on the left. */
  lemma PrefixOfConcat(a: string, b: string)
    ensures StartsWith(a + b, a) && (a + b)[|a|..] == b
  {
  }

  /** A string built from four pieces, associated to the right, ends with the last one. */
  lemma EndsWithLast(a: string, b: string, c: string, d: string)
    ensures var s := a + (b + (c + d));
      |d| <= |s| && s[|s| - |d|..] == d
  {
    var s := a + (b + (c + d));
    assert s == ((a + b) + c) + d;
  }

  /** `f"{s:<{width}}"`: `s` left-aligned in a field of `width`, padded with
      spaces on the right and never truncated. */
  function LJust(s: string, width: nat): (r: string)
    ensures |r| == Max(|s|, width)
    ensures r[..|s|] == s
    ensures forall k :: |s| <= k < |r| ==> r[k] == ' '
  {
    if width <= |s| then s else s + Repeat(' ', width - |s|)
  }

  /** `sep.join(parts)`. */
  function Join(parts: seq<string>, sep: string): string
  {
    if |parts| == 0 then ""
    else if |parts| == 1 then parts[0]
    else parts[0] + sep + Join(parts[1..], sep)
  }

  function TotalLength(parts: seq<string>): nat
  {
    if |parts| == 0 then 0 else |parts[0]| + TotalLength(parts[1..])
  }

  /** A join is as long as its parts plus one separator between each pair. */
  lemma {:induction false} JoinLength(parts: seq<string>, sep: string)
    requires |parts| > 0
    ensures |Join(parts, sep)| == TotalLength(parts) + (|parts| - 1) * |sep|
  {
    if |parts| > 1 {
      JoinLength(parts[1..], sep);
    }
  }

  /** Joining a longer list appends the separator and the last part. */
  lemma {:induction false} JoinSnoc(parts: seq<string>, sep: string)
    requires |parts| > 1
    ensures Join(parts, sep) == Join(parts[..|parts| - 1], sep) + sep + parts[|parts| - 1]
  {
    if |parts| > 2 {
      JoinSnoc(parts[1..], sep);
      assert parts[1..][..|parts[1..]| - 1] == parts[..|parts| - 1][1..];
    }
  }

  /** Every character of a join comes from the separator or from one of the parts. */
  lemma {:induction false} JoinMembers(parts: seq<string>, sep: string, x: char)
    requires x in Join(parts, sep)
    ensures x in sep || exists i :: 0 <= i < |parts| && x in parts[i]
  {
    if |parts| > 1 && x !in parts[0] && x !in sep {
      JoinMembers(parts[1..], sep, x);
      var i :| 0 <= i < |parts[1..]| && x in parts[1..][i];
      assert x in parts[i + 1];
    }
  }

  /** `s.split(c)`: the maximal runs of `s` between occurrences of `c`, empty
      runs included, so there is always at least one part. */
  function Split(s: string, c: char): (r: seq<string>)
    ensures |r| >= 1
    ensures forall i :: 0 <= i < |r| ==> c !in r[i]
    ensures Join(r, [c]) == s
    ensures |r[0]| <= |s| && s[..|r[0]|] == r[0]
    ensures |r[0]| < |s| ==> s[|r[0]|] == c
  {
    if |s| == 0 then [""]
    else
      var rest := Split(s[1..], c);
      if s[0] == c then
        assert ([""] + rest)[1..] == rest;
        [""] + rest
      else
        var r := [[s[0]] + rest[0]] + rest[1..];
        assert r[1..] == rest[1..];
        assert |rest| > 1 ==> Join(rest, [c]) == rest[0] + [c] + Join(rest[1..], [c]);
        assert s == [s[0]] + s[1..];
        r
  }

  lemma {:induction false} SplitWithoutSeparator(a: string, c: char)
    requires c !in a
    ensures Split(a, c) == [a]
  {
    if |a| > 0 {
      assert c !in a[1..];
      SplitWithoutSeparator(a[1..], c);
      assert [a[0]] + a[1..] == a;
    }
  }

  /** Splitting `a + c + b` where `a` holds no `c` yields `a` followed by the split of `b`. */
  lemma {:induction false} SplitAtFirstSeparator(a: string, c: char, b: string)
    requires c !in a
    ensures Split(a + [c] + b, c) == [a] + Split(b, c)
  {
    var s := a + [c] + b;
    if |a| == 0 {
      assert s[1..] == b;
    } else {
      assert s[1..] == a[1..] + [c] + b;
      assert c !in a[1..];
      SplitAtFirstSeparator(a[1..], c, b);
      assert [a[0]] + a[1..] == a;
    }
  }

  /** Splitting on `c` undoes joining with `c` when no part contains `c`. */
  lemma {:induction false} SplitJoin(parts: seq<string>, c: char)
    requires |parts| >= 1
    requires forall i :: 0 <= i < |parts| ==> c !in parts[i]
    ensures Split(Join(parts, [c]), c) == parts
  {
    if |parts| == 1 {
      SplitWithoutSeparator(parts[0], c);
    } else {
      SplitJoin(parts[1..], c);
      SplitAtFirstSeparator(parts[0], c, Join(parts[1..], [c]));
      assert [parts[0]] + parts[1..] == parts;
    }
  }

  predicate IsDigit(ch: char)
  {
    '0' <= ch <= '9'
  }

  predicate AllDigits(s: string)
  {
    |s| > 0 && forall k :: 0 <= k < |s| ==> IsDigit(s[k])
  }

  function DigitChar(d: nat): (ch: char)
    requires d < 10
    ensures IsDigit(ch)
  {
    (48 + d) as char
  }

  function DigitValue(ch: char): nat
    requires IsDigit(ch)
  {
    ch as int - 48
  }

  /** The decimal digits of `n`, most significant first, without leading zeros. */
  function NatToDecimal(n: nat): (s: string)
    ensures AllDigits(s)
    ensures |s| == 1 <==> n < 10
    ensures n > 0 ==> s[0] != '0'
  {
    if n < 10 then [DigitChar(n)] else NatToDecimal(n / 10) + [DigitChar(n % 10)]
  }

  /** The number a non-empty run of decimal digits denotes. */
  function DecimalValue(s: string): nat
    requires forall k :: 0 <= k < |s| ==> IsDigit(s[k])
  {
    if |s| == 0 then 0 else DecimalValue(s[..|s| - 1]) * 10 + DigitValue(s[|s| - 1])
  }

  /** `str(n)` for a Python `int`. */
  function IntToString(n: int): (s: string)
    ensures |s| > 0
    ensures n < 0 <==> s[0] == '-'
    ensures n < 0 ==> AllDigits(s[1..]) && s[1] != '0'
    ensures n >= 0 ==> AllDigits(s) && (|s| > 1 ==> s[0] != '0')
  {
    if n < 0 then "-" + NatToDecimal(-n) else NatToDecimal(n)
  }

  /** `int(s)` for a Python `str`, on an optional sign followed by ASCII
      digits; `None` stands for the `ValueError` Python raises otherwise. */
  function ParseInt(s: string): (r: Option<int>)
    ensures r.Some? <==> AllDigits(s) || (|s| > 0 && (s[0] == '-' || s[0] == '+') && AllDigits(s[1..]))
    ensures r.Some? && r.value < 0 ==> s[0] == '-'
    ensures AllDigits(s) ==> r == Some(DecimalValue(s))
    ensures r.Some? && !AllDigits(s) ==>
      && (s[0] == '-' || s[0] == '+') && AllDigits(s[1..])
      && r.value == (var m: int := DecimalValue(s[1..]); if s[0] == '-' then -m else m)
  {
    if |s| > 0 && (s[0] == '-' || s[0] == '+') && AllDigits(s[1..]) then
      var magnitude: int := DecimalValue(s[1..]);
      Some(if s[0] == '-' then -magnitude else magnitude)
    else if AllDigits(s) then Some(DecimalValue(s))
    else None
  }

  lemma {:induction false} DecimalRoundTrip(n: nat)
    ensures DecimalValue(NatToDecimal(n)) == n
  {
    if n >= 10 {
      DecimalRoundTrip(n / 10);
      var s := NatToDecimal(n);
      assert s[..|s| - 1] == NatToDecimal(n / 10);
    }
  }

  /** `int(str(n)) == n`. */
  lemma ParseIntRoundTrip(n: int)
    ensures ParseInt(IntToString(n)) == Some(n)
  {
    if n < 0 {
      DecimalRoundTrip(-n);
      assert IntToString(n)[1..] == NatToDecimal(-n);
    } else {
      DecimalRoundTrip(n);
    }
  }
}

=== FILE: status_menu.dfy ===
/** The admin console's "Update Order Status" menu step in
    `order_management_loop` (frontend/cli-admin/main.py): the typed choice is
    looked up in `status_map`, and only a known choice with a numeric order id
    leads to a status-update request. */
module StatusMenu {
  import opened Wrappers
  import opened PyStr

  datatype OrderStatus = Pending | Processing | Shipped | Delivered | Cancelled | Refunded
  {
    /** The status string sent to the order service. */
    function Name(): string
    {
      match this
      case Pending => "pending"
      case Processing => "processing"
      case Shipped => "shipped"
      case Delivered => "delivered"
      case Cancelled => "cancelled"
      case Refunded => "refunded"
    }
  }

  /** The options in the order the menu lists them: option `k` is `MenuOrder[k - 1]`. */
  const MenuOrder: seq<OrderStatus> := [Pending, Processing, Shipped, Delivered, Cancelled, Refunded]

  /** The menu keys `"1"` to `"6"`. */
  const MenuKeys: set<string> := {"1", "2", "3", "4", "5", "6"}

  /** `status_map.get(choice)`. */
  function StatusChoice(choice: string): (r: Option<OrderStatus>)
    ensures r.Some? <==> choice in MenuKeys
  {
    if choice == "1" then Some(Pending)
    else if choice == "2" then Some(Processing)
    else if choice == "3" then Some(Shipped)
    else if choice == "4" then Some(Delivered)
    else if choice == "5" then Some(Cancelled)
    else if choice == "6" then Some(Refunded)
    else None
  }

  /** The menu key the console prints next to each status. */
  function MenuKey(s: OrderStatus): (k: string)
    ensures k in MenuKeys
  {
    match s
    case Pending => "1"
    case Processing => "2"
    case Shipped => "3"
    case Delivered => "4"
    case Cancelled => "5"
    case Refunded => "6"
  }

  /** The lookup selects status `s` exactly when the admin typed the key
      printed next to `s`: the map is a bijection between keys and statuses. */
  lemma StatusChoiceInvertsMenuKey(choice: string, s: OrderStatus)
    ensures StatusChoice(choice) == Some(s) <==> choice == MenuKey(s)
  {
  }

  /** Keys `"1"`..`"6"` select the statuses in the order the menu lists them. */
  lemma StatusChoiceFollowsMenuOrder(k: nat)
    requires 1 <= k <= |MenuOrder|
    ensures StatusChoice([DigitChar(k)]) == Some(MenuOrder[k - 1])
  {
    assert [DigitChar(k)] == MenuKey(MenuOrder[k - 1]);
  }

  /** No two statuses are sent under the same name. */
  lemma NamesDistinct(s: OrderStatus, t: OrderStatus)
    ensures s.Name() == t.Name() <==> s == t
  {
  }

  /** What the menu step does with its two inputs. */
  datatype MenuAction =
    | InvalidStatusChoice              // "Invalid status choice"; nothing sent
    | InvalidOrderId                   // `int(order_id)` raised ValueError; nothing sent
    | SendStatusUpdate(path: string)   // PUT request on this path

  /** The request path `update_order_status` uses. */
  function StatusUpdatePath(orderId: int, s: OrderStatus): (p: string)
    ensures StartsWith(p, "/orders/")
    ensures StartsWith(p[|"/orders/"|..], IntToString(orderId))
  {
    var id := IntToString(orderId);
    var rest := id + ("/status?status=" + s.Name());
    PrefixOfConcat("/orders/", rest);
    PrefixOfConcat(id, "/status?status=" + s.Name());
    "/orders/" + rest
  }

  /** The status choice is checked before the order id is converted, and a
      request goes out only when both succeed. */
  function UpdateStatusStep(orderIdText: string, choice: string): (a: MenuAction)
    ensures choice !in MenuKeys ==> a == InvalidStatusChoice
    ensures choice in MenuKeys && ParseInt(orderIdText).None? ==> a == InvalidOrderId
    ensures a.SendStatusUpdate? <==> choice in MenuKeys && ParseInt(orderIdText).Some?
    ensures a.SendStatusUpdate? ==>
      exists s :: StatusChoice(choice) == Some(s) && a == SendStatusUpdate(StatusUpdatePath(ParseInt(orderIdText).value, s))
  {
    match StatusChoice(choice)
    case None => InvalidStatusChoice
    case Some(s) =>
      match ParseInt(orderIdText)
      case None => InvalidOrderId
      case Some(id) => SendStatusUpdate(StatusUpdatePath(id, s))
  }

  /** The request path ends with the chosen status name. */
  lemma StatusUpdatePathNamesStatus(orderId: int, s: OrderStatus)
    ensures var p := StatusUpdatePath(orderId, s);
      |s.Name()| <= |p| && p[|p| - |s.Name()|..] == s.Name()
  {
    EndsWithLast("/orders/", IntToString(orderId), "/status?status=", s.Name());
  }
}

=== FILE: table_format.dfy ===
/** The admin console's text-table renderer, `format_table(headers, rows, title)`
    in frontend/cli-admin/main.py. Cells are taken as the strings `str(cell)`
    produces. */
module TableFormat {
  import opened Wrappers
  import opened PyStr

  /** The `IndexError` raised when a row has more cells than there are headers:
      column widths exist only per header. */
  datatype TableError = IndexError

  /** `w` is the maximum of the header's length and the lengths of the
      column-`i` cells of every row that has an `i`-th cell. */
  ghost predicate IsColumnWidth(w: nat, header: string, rows: seq<seq<string>>, i: nat)
  {
    && |header| <= w
    && (forall j :: 0 <= j < |rows| && i < |rows[j]| ==> |rows[j][i]| <= w)
    && (w == |header| || exists j :: 0 <= j < |rows| && i < |rows[j]| && w == |rows[j][i]|)
  }

  /** The width of column `i`, folding `max` over the rows in order. */
  function ColumnWidth(header: string, rows: seq<seq<string>>, i: nat): (w: nat)
    ensures IsColumnWidth(w, header, rows, i)
  {
    if |rows| == 0 then |header|
    else
      var before := rows[..|rows| - 1];
      var w0 := ColumnWidth(header, before, i);
      assert forall j :: 0 <= j < |before| ==> before[j] == rows[j];
      var last := rows[|rows| - 1];
      if i < |last| && w0 < |last[i]| then |last[i]| else w0
  }

  /** One width per header. */
  function ColumnWidths(headers: seq<string>, rows: seq<seq<string>>): (ws: seq<nat>)
    ensures |ws| == |headers|
    ensures forall i :: 0 <= i < |ws| ==> IsColumnWidth(ws[i], headers[i], rows, i)
  {
    seq(|headers|, i requires 0 <= i < |headers| => ColumnWidth(headers[i], rows, i))
  }

  function Sum(ws: seq<nat>): nat
  {
    if |ws| == 0 then 0 else Sum(ws[..|ws| - 1]) + ws[|ws| - 1]
  }

  /** A `+`, then one run of `w + 2` dashes per width with a `+` after each run. */
  function Separator(ws: seq<nat>): (r: string)
    ensures |r| >= 2 && r[0] == '+' && r[|r| - 1] == '+'
  {
    "+" + Join(seq(|ws|, i requires 0 <= i < |ws| => Repeat('-', ws[i] + 2)), "+") + "+"
  }

  /** One cell: a space, the cell left-justified to width `w`, then `" |"`. */
  function Cell(cell: string, w: nat): string
  {
    " " + LJust(cell, w) + " |"
  }

  /** The cells appended, in order, to a line that starts as `"|"`. */
  function Cells(cells: seq<string>, ws: seq<nat>): string
    requires |cells| <= |ws|
  {
    if |cells| == 0 then ""
    else Cells(cells[..|cells| - 1], ws) + Cell(cells[|cells| - 1], ws[|cells| - 1])
  }

  /** The header line and every data line: `"|"` followed by one cell per entry. */
  function Line(cells: seq<string>, ws: seq<nat>): string
    requires |cells| <= |ws|
  {
    "|" + Cells(cells, ws)
  }

  /** True iff every row has at most as many cells as there are headers. */
  predicate RowsFit(headers: seq<string>, rows: seq<seq<string>>)
  {
    forall j :: 0 <= j < |rows| ==> |rows[j]| <= |headers|
  }

  /** The list `table` that `format_table` joins with newlines. */
  function TableLines(headers: seq<string>, rows: seq<seq<string>>, title: string): (lines: seq<string>)
    requires RowsFit(headers, rows)
    ensures |lines| == |rows| + 4 + (if title != "" then 2 else 0)
  {
    var ws := ColumnWidths(headers, rows);
    var sep := Separator(ws);
    var body := seq(|rows|, j requires 0 <= j < |rows| => Line(rows[j], ws));
    (if title != "" then [title, ""] else []) + [sep, Line(headers, ws), sep] + body + [sep]
  }

  function FormatTable(headers: seq<string>, rows: seq<seq<string>>, title: string): (r: Result<string, TableError>)
    ensures |rows| == 0 ==> r == Success(title + "\nNo data found.")
    ensures |rows| > 0 ==> (r.Failure? <==> exists j :: 0 <= j < |rows| && |rows[j]| > |headers|)
  {
    if |rows| == 0 then Success(title + "\nNo data found.")
    else if !RowsFit(headers, rows) then Failure(IndexError)
    else Success(Join(TableLines(headers, rows, title), "\n"))
  }

  // ---------------------------------------------------------------------------
  // Properties

  /** With no rows the headers play no part in the output. */
  lemma EmptyRowsIgnoreHeaders(h1: seq<string>, h2: seq<string>, title: string)
    ensures FormatTable(h1, [], title) == FormatTable(h2, [], title) == Success(title + "\nNo data found.")
  {
  }

  /** Every width is at least its header's length and every cell's length in
      that column. */
  lemma WidthsBoundColumns(headers: seq<string>, rows: seq<seq<string>>, i: nat, j: nat)
    requires i < |headers| && j < |rows| && i < |rows[j]|
    ensures |headers[i]| <= ColumnWidths(headers, rows)[i]
    ensures |rows[j][i]| <= ColumnWidths(headers, rows)[i]
  {
  }

  lemma {:induction false} SumPrefix(ws: seq<nat>, k: nat)
    requires k <= |ws|
    ensures Sum(ws[..k]) <= Sum(ws)
    ensures k < |ws| ==> Sum(ws[..k]) < Sum(ws) + 3 * (|ws| - k)
    decreases |ws|
  {
    if k < |ws| {
      assert ws[..|ws| - 1][..k] == ws[..k];
      SumPrefix(ws[..|ws| - 1], k);
    } else {
      assert ws[..k] == ws;
    }
  }

  lemma {:induction false} DashesLength(ws: seq<nat>)
    ensures TotalLength(seq(|ws|, i requires 0 <= i < |ws| => Repeat('-', ws[i] + 2))) == Sum(ws) + 2 * |ws|
  {
    var dashes := seq(|ws|, i requires 0 <= i < |ws| => Repeat('-', ws[i] + 2));
    if |ws| > 0 {
      var init := ws[..|ws| - 1];
      DashesLength(init);
      TotalLengthSnoc(dashes);
      assert dashes[..|dashes| - 1] == seq(|init|, i requires 0 <= i < |init| => Repeat('-', init[i] + 2));
    }
  }

  lemma {:induction false} TotalLengthSnoc(parts: seq<string>)
    requires |parts| > 0
    ensures TotalLength(parts) == TotalLength(parts[..|parts| - 1]) + |parts[|parts| - 1]|
  {
    if |parts| > 1 {
      TotalLengthSnoc(parts[1..]);
      assert parts[1..][..|parts[1..]| - 1] == parts[..|parts| - 1][1..];
    }
  }

  /** The separator is made of `+` and `-` only; with `n >= 1` columns it is
      `sum(widths) + 3n + 1` long, and with none it is `"++"`. */
  lemma SeparatorShape(ws: seq<nat>)
    ensures forall k :: 0 <= k < |Separator(ws)| ==> Separator(ws)[k] in "+-"
    ensures |ws| > 0 ==> |Separator(ws)| == Sum(ws) + 3 * |ws| + 1
    ensures |ws| == 0 ==> Separator(ws) == "++"
  {
    var dashes := seq(|ws|, i requires 0 <= i < |ws| => Repeat('-', ws[i] + 2));
    var joined := Join(dashes, "+");
    forall k | 0 <= k < |joined|
      ensures joined[k] in "+-"
    {
      JoinMembers(dashes, "+", joined[k]);
    }
    if |ws| > 0 {
      JoinLength(dashes, "+");
      DashesLength(ws);
    }
  }

  /** The frame a table draws for columns `ws`, built column by column: a
      `+`, then for each column a run of `w + 2` dashes closed by a `+`. */
  function Frame(ws: seq<nat>): string
  {
    if |ws| == 0 then "+" else Frame(ws[..|ws| - 1]) + Repeat('-', ws[|ws| - 1] + 2) + "+"
  }

  /** `p` is where the first `k` columns end, for some `k`: the `+` of the
      separator and the `|` of a line sit there. */
  predicate IsBoundary(ws: seq<nat>, p: int)
  {
    exists k :: 0 <= k <= |ws| && p == Sum(ws[..k]) + 3 * k
  }

  /** The boundaries of the first `n - 1` columns are boundaries of all `n`,
      and all lie before the last column's closing `+`. */
  lemma BoundaryOfInit(ws: seq<nat>, p: int)
    requires |ws| > 0 && IsBoundary(ws[..|ws| - 1], p)
    ensures IsBoundary(ws, p)
    ensures p < Sum(ws[..|ws| - 1]) + 3 * (|ws| - 1) + 1
  {
    var init := ws[..|ws| - 1];
    var k :| 0 <= k <= |init| && p == Sum(init[..k]) + 3 * k;
    assert ws[..k] == init[..k];
    SumPrefix(init, k);
  }

  /** A boundary of `n` columns is one of the first `n - 1`, or the last one. */
  lemma BoundaryOfSnoc(ws: seq<nat>, p: int)
    requires |ws| > 0 && IsBoundary(ws, p)
    ensures IsBoundary(ws[..|ws| - 1], p) || p == Sum(ws) + 3 * |ws|
  {
    var n := |ws|;
    var k :| 0 <= k <= n && p == Sum(ws[..k]) + 3 * k;
    if k < n {
      assert ws[..n - 1][..k] == ws[..k];
    } else {
      assert ws[..k] == ws;
    }
  }

  /** The frame has a `+` exactly at the column boundaries and `-` everywhere else. */
  lemma {:induction false} FrameShape(ws: seq<nat>)
    ensures |Frame(ws)| == Sum(ws) + 3 * |ws| + 1
    ensures forall p :: 0 <= p < |Frame(ws)| ==> Frame(ws)[p] in "+-"
    ensures forall p :: 0 <= p < |Frame(ws)| ==> (Frame(ws)[p] == '+' <==> IsBoundary(ws, p))
  {
    if |ws| == 0 {
      assert ws[..0] == [];
      assert IsBoundary(ws, 0);
    } else {
      var n := |ws|;
      var init := ws[..n - 1];
      FrameShape(init);
      var f0 := Frame(init);
      var tail := Repeat('-', ws[n - 1] + 2) + "+";
      assert Frame(ws) == f0 + tail;
      forall p | 0 <= p < |Frame(ws)|
        ensures Frame(ws)[p] in "+-"
        ensures Frame(ws)[p] == '+' <==> IsBoundary(ws, p)
      {
        if IsBoundary(init, p) {
          BoundaryOfInit(ws, p);
        }
        if IsBoundary(ws, p) {
          BoundaryOfSnoc(ws, p);
        }
        if p < |f0| {
          assert Frame(ws)[p] == f0[p];
        } else {
          assert Frame(ws)[p] == tail[p - |f0|];
          if p == |Frame(ws)| - 1 {
            assert ws[..n] == ws;
            assert IsBoundary(ws, p);
          }
        }
      }
    }
  }

  lemma {:induction false} JoinDashesSnoc(ws: seq<nat>)
    requires |ws| > 1
    ensures var dashes := seq(|ws|, i requires 0 <= i < |ws| => Repeat('-', ws[i] + 2));
      var init := ws[..|ws| - 1];
      Join(dashes, "+") ==
        Join(seq(|init|, i requires 0 <= i < |init| => Repeat('-', init[i] + 2)), "+") + "+" + dashes[|ws| - 1]
  {
    var dashes := seq(|ws|, i requires 0 <= i < |ws| => Repeat('-', ws[i] + 2));
    var init := ws[..|ws| - 1];
    assert dashes[..|ws| - 1] == seq(|init|, i requires 0 <= i < |init| => Repeat('-', init[i] + 2));
    JoinSnoc(dashes, "+");
  }

  /** With at least one column the separator is the frame. */
  lemma {:induction false} SeparatorIsFrame(ws: seq<nat>)
    requires |ws| > 0
    ensures Separator(ws) == Frame(ws)
  {
    var n := |ws|;
    if n == 1 {
      assert ws[..0] == [];
    } else {
      SeparatorIsFrame(ws[..n - 1]);
      JoinDashesSnoc(ws);
    }
  }

  /** With at least one column the separator has a `+` exactly at the column
      boundaries and `-` everywhere else. */
  lemma SeparatorBoundaries(ws: seq<nat>)
    requires |ws| > 0
    ensures forall p :: 0 <= p < |Separator(ws)| ==> (Separator(ws)[p] == '+' <==> IsBoundary(ws, p))
    ensures forall p :: 0 <= p < |Separator(ws)| ==> (Separator(ws)[p] == '-' <==> !IsBoundary(ws, p))
  {
    SeparatorIsFrame(ws);
    FrameShape(ws);
  }

  /** A line has a `|` at every column boundary of its cells. */
  lemma {:induction false} LineBars(cells: seq<string>, ws: seq<nat>, k: nat)
    requires |cells| <= |ws| && k <= |cells|
    requires forall i :: 0 <= i < |cells| ==> |cells[i]| <= ws[i]
    ensures Sum(ws[..k]) + 3 * k < |Line(cells, ws)|
    ensures Line(cells, ws)[Sum(ws[..k]) + 3 * k] == '|'
    decreases |cells|
  {
    var n := |cells|;
    LineLength(cells, ws);
    if n > 0 {
      var init := cells[..n - 1];
      LineLength(init, ws);
      assert Line(cells, ws) == Line(init, ws) + Cell(cells[n - 1], ws[n - 1]);
      if k < n {
        LineBars(init, ws, k);
      } else {
        assert ws[..n][..n - 1] == ws[..n - 1];
      }
    }
  }

  /** Every `+` of the separator stands above a `|` of a line with one
      fitting cell per column. */
  lemma SeparatorAlignsWithLine(cells: seq<string>, ws: seq<nat>)
    requires |cells| == |ws| > 0
    requires forall i :: 0 <= i < |cells| ==> |cells[i]| <= ws[i]
    ensures forall p :: 0 <= p < |Separator(ws)| && Separator(ws)[p] == '+' ==>
      p < |Line(cells, ws)| && Line(cells, ws)[p] == '|'
  {
    SeparatorBoundaries(ws);
    forall p | 0 <= p < |Separator(ws)| && Separator(ws)[p] == '+'
      ensures p < |Line(cells, ws)| && Line(cells, ws)[p] == '|'
    {
      var k :| 0 <= k <= |ws| && p == Sum(ws[..k]) + 3 * k;
      LineBars(cells, ws, k);
    }
  }

  /** With at least one header, every `+` of the separator stands above a `|`
      of the header line and of every full row: the frame lines up. */
  lemma SeparatorAlignsWithLines(headers: seq<string>, rows: seq<seq<string>>, j: nat)
    requires |headers| > 0 && RowsFit(headers, rows) && j < |rows|
    ensures var ws := ColumnWidths(headers, rows);
      forall p :: 0 <= p < |Separator(ws)| && Separator(ws)[p] == '+' ==>
        && p < |Line(headers, ws)| && Line(headers, ws)[p] == '|'
        && (|rows[j]| == |headers| ==> p < |Line(rows[j], ws)| && Line(rows[j], ws)[p] == '|')
  {
    var ws := ColumnWidths(headers, rows);
    SeparatorAlignsWithLine(headers, ws);
    if |rows[j]| == |headers| {
      SeparatorAlignsWithLine(rows[j], ws);
    }
  }

  /** A line is one `|`, then each cell padded to at least its column's width
      and framed by `" "` and `" |"`. */
  lemma {:induction false} LineLength(cells: seq<string>, ws: seq<nat>)
    requires |cells| <= |ws|
    requires forall i :: 0 <= i < |cells| ==> |cells[i]| <= ws[i]
    ensures |Line(cells, ws)| == 1 + Sum(ws[..|cells|]) + 3 * |cells|
  {
    if |cells| > 0 {
      var n := |cells|;
      LineLength(cells[..n - 1], ws);
      assert ws[..n][..n - 1] == ws[..n - 1];
    }
  }

  /** The header line, and every data line whose row has one cell per header,
      are exactly as long as the separator; a shorter row gives a strictly
      shorter line. */
  lemma LinesMatchSeparator(headers: seq<string>, rows: seq<seq<string>>, j: nat)
    requires |headers| > 0 && RowsFit(headers, rows) && j < |rows|
    ensures var ws := ColumnWidths(headers, rows);
      && |Line(headers, ws)| == |Separator(ws)|
      && (|rows[j]| == |headers| ==> |Line(rows[j], ws)| == |Separator(ws)|)
      && (|rows[j]| < |headers| ==> |Line(rows[j], ws)| < |Separator(ws)|)
  {
    var ws := ColumnWidths(headers, rows);
    SeparatorShape(ws);
    LineLength(headers, ws);
    assert ws[..|headers|] == ws;
    LineLength(rows[j], ws);
    SumPrefix(ws, |rows[j]|);
    if |rows[j]| == |headers| {
      assert ws[..|rows[j]|] == ws;
    }
  }

  /** The rendered lines: four framing lines plus one per row, preceded by the
      title and a blank line when there is a title. */
  lemma TableLinesLayout(headers: seq<string>, rows: seq<seq<string>>, title: string)
    requires RowsFit(headers, rows)
    ensures var lines := TableLines(headers, rows, title);
      var ws := ColumnWidths(headers, rows);
      var t := if title != "" then 2 else 0;
      && |lines| == |rows| + 4 + t
      && (title != "" ==> lines[0] == title && lines[1] == "")
      && lines[t] == lines[t + 2] == lines[|lines| - 1] == Separator(ws)
      && lines[t + 1] == Line(headers, ws)
      && forall j :: 0 <= j < |rows| ==> lines[t + 3 + j] == Line(rows[j], ws)
  {
  }

  lemma {:induction false} CellsAvoid(cells: seq<string>, ws: seq<nat>, x: char)
    requires |cells| <= |ws|
    requires x != ' ' && x != '|'
    requires forall i :: 0 <= i < |cells| ==> x !in cells[i]
    ensures x !in Cells(cells, ws)
  {
    if |cells| > 0 {
      var n := |cells|;
      CellsAvoid(cells[..n - 1], ws, x);
    }
  }

  predicate NoNewline(s: string)
  {
    '\n' !in s
  }

  predicate LinesWithoutNewline(lines: seq<string>)
  {
    forall i :: 0 <= i < |lines| ==> NoNewline(lines[i])
  }

  lemma TableLinesWithoutNewline(headers: seq<string>, rows: seq<seq<string>>, title: string)
    requires RowsFit(headers, rows)
    requires NoNewline(title)
    requires forall i :: 0 <= i < |headers| ==> NoNewline(headers[i])
    requires forall j, i :: 0 <= j < |rows| && 0 <= i < |rows[j]| ==> NoNewline(rows[j][i])
    ensures LinesWithoutNewline(TableLines(headers, rows, title))
  {
    var ws := ColumnWidths(headers, rows);
    var sep := Separator(ws);
    SeparatorShape(ws);
    assert NoNewline(sep);
    CellsAvoid(headers, ws, '\n');
    var body := seq(|rows|, j requires 0 <= j < |rows| => Line(rows[j], ws));
    forall j | 0 <= j < |rows|
      ensures NoNewline(body[j])
    {
      CellsAvoid(rows[j], ws, '\n');
    }
    var head := if title != "" then [title, ""] else [];
    assert LinesWithoutNewline(head);
    assert LinesWithoutNewline([sep, Line(headers, ws), sep]);
    assert LinesWithoutNewline(body);
    LinesConcat(head, [sep, Line(headers, ws), sep]);
    LinesConcat(head + [sep, Line(headers, ws), sep], body);
    LinesConcat(head + [sep, Line(headers, ws), sep] + body, [sep]);
  }

  lemma LinesConcat(a: seq<string>, b: seq<string>)
    requires LinesWithoutNewline(a) && LinesWithoutNewline(b)
    ensures LinesWithoutNewline(a + b)
  {
    forall i | 0 <= i < |a + b|
      ensures NoNewline((a + b)[i])
    {
      if i >= |a| {
        assert (a + b)[i] == b[i - |a|];
      }
    }
  }

  /** When no title, header or cell contains a newline, the rendered table
      splits back at its newlines into exactly the lines above. */
  lemma FormatTableSplitsIntoLines(headers: seq<string>, rows: seq<seq<string>>, title: string)
    requires |rows| > 0 && RowsFit(headers, rows)
    requires NoNewline(title)
    requires forall i :: 0 <= i < |headers| ==> NoNewline(headers[i])
    requires forall j, i :: 0 <= j < |rows| && 0 <= i < |rows[j]| ==> NoNewline(rows[j][i])
    ensures FormatTable(headers, rows, title).Success?
    ensures Split(FormatTable(headers, rows, title).value, '\n') == TableLines(headers, rows, title)
  {
    var lines := TableLines(headers, rows, title);
    TableLinesWithoutNewline(headers, rows, title);
    TableLinesLayout(headers, rows, title);
    SplitJoin(lines, '\n');
  }

  /** A row longer than the header list makes the whole call fail, wherever the row is. */
  lemma LongRowFails(headers: seq<string>, rows: seq<seq<string>>, title: string, j: nat)
    requires j < |rows| && |rows[j]| > |headers|
    ensures FormatTable(headers, rows, title) == Failure(IndexError)
  {
  }
}

=== FILE: user_profile.dfy ===
/** The profile endpoints of the user service (user-services/app/main.py):
    `GET /users/{user_id}` and `PUT /users/{user_id}`. The database is a
    parameter: for each statement handed to it, the rows it returns or the
    message of the exception it raises. Both handlers wrap their bodies in a
    broad `except Exception`, so every error they raise, their own 4xx
    included, reaches the client as a 500 whose detail is `str(e)`. */
module UserProfile {
  import opened Wrappers
  import opened PyStr
  import opened Json
  import opened HttpErrors

  /** How a database call ended. */
  datatype Db<T> = Done(value: T) | Raised(message: string)

  /** A parameterised SQL statement: text with `%s` markers and the values bound to them. */
  datatype Statement = Statement(sql: string, params: seq<Value>)

  /** The response of the broad handler: every exception becomes a 500 carrying its text. */
  function ServerError(message: string): ErrorReply
  {
    HttpError(500, message)
  }

  // ---------------------------------------------------------------------------
  // GET /users/{user_id}

  /** The lookup `get_user_profile` runs: the user id is bound to the only marker. */
  function ProfileQuery(userId: int): (st: Statement)
    ensures st.params == [JInt(userId)]
  {
    Statement("SELECT * FROM users WHERE user_id = " + "%s", [JInt(userId)])
  }

  /** `get_user_profile`: the first row the lookup finds; no row raises 404,
      which the handler turns into a 500. `query` is the database. */
  function GetUserProfile(userId: int, query: Statement -> Db<seq<Object>>): (r: Result<Object, ErrorReply>)
    ensures var rows := query(ProfileQuery(userId));
      r.Success? <==> rows.Done? && |rows.value| > 0
    ensures r.Success? ==> r.value == query(ProfileQuery(userId)).value[0]
    ensures r.Failure? ==> r.error.HttpError? && r.error.status == 500
    ensures query(ProfileQuery(userId)) == Done([]) ==> r == Failure(ServerError(ExceptionText(404, "User not found")))
    ensures query(ProfileQuery(userId)).Raised? ==> r == Failure(ServerError(query(ProfileQuery(userId)).message))
  {
    match query(ProfileQuery(userId))
    case Raised(message) => Failure(ServerError(message))
    case Done(found) =>
      if |found| == 0 then Failure(ServerError(ExceptionText(404, "User not found")))
      else Success(found[0])
  }

  /** The lookup holds exactly one `%s`, so the one bound value is the user id. */
  lemma ProfileQueryBindsUserId(userId: int)
    ensures Placeholders(ProfileQuery(userId).sql) == |ProfileQuery(userId).params| == 1
  {
    MarkerAfter("SELECT * FROM users WHERE user_id = ");
  }

  // ---------------------------------------------------------------------------
  // PUT /users/{user_id}

  /** One `key: value` entry of the request's JSON object, in body order. */
  type Field = (string, Value)

  /** The request body: the decoded object's entries, or the message of the
      exception raised while reading it (malformed JSON, or a value that is not
      an object). */
  datatype Body = Fields(fields: seq<Field>) | Unreadable(message: string)

  /** One assignment of the SET clause: the key, then `" = %s"`. */
  function Assignment(key: string): string
  {
    key + " = %s"
  }

  /** The SET clause: one assignment per body key, in body order, separated
      by `", "`. */
  function SetClause(fields: seq<Field>): (r: string)
    ensures |fields| == 0 <==> r == ""
    ensures |fields| > 0 ==> StartsWith(r, Assignment(fields[0].0))
  {
    var parts := seq(|fields|, i requires 0 <= i < |fields| => Assignment(fields[i].0));
    assert |fields| > 1 ==> Join(parts, ", ") == parts[0] + (", " + Join(parts[1..], ", "));
    Join(parts, ", ")
  }

  /** The statement `update_user_profile` executes: one assignment per body
      key, in body order, bound to the body's values followed by `user_id`. */
  function UpdateStatement(userId: int, fields: seq<Field>): (st: Statement)
    ensures |st.params| == |fields| + 1
    ensures forall i :: 0 <= i < |fields| ==> st.params[i] == fields[i].1
    ensures st.params[|fields|] == JInt(userId)
  {
    var values := seq(|fields|, i requires 0 <= i < |fields| => fields[i].1);
    Statement("UPDATE users SET " + (SetClause(fields) + " where user_id = %s"), values + [JInt(userId)])
  }

  /** What `PUT /users/{user_id}` answers, and the statement it handed to the
      database, if any. */
  datatype UpdateReply = UpdateReply(result: Result<string, ErrorReply>, executed: Option<Statement>)

  /** `update_user_profile`. `execute` is the database: what it does with a
      statement, run to completion or raise. */
  function UpdateUserProfile(userId: int, body: Body, execute: Statement -> Db<()>): (r: UpdateReply)
    ensures r.result.Success? <==>
      body.Fields? && |body.fields| > 0 && execute(UpdateStatement(userId, body.fields)).Done?
    ensures r.result.Failure? ==> r.result.error.HttpError? && r.result.error.status == 500
    ensures body == Fields([]) ==>
      r == UpdateReply(Failure(ServerError(ExceptionText(400, "No profile data provided"))), None)
    ensures r.executed.Some? <==> body.Fields? && |body.fields| > 0
    ensures r.executed.Some? ==> r.executed.value == UpdateStatement(userId, body.fields)
    ensures r.result.Success? ==> r.result.value == "User profile updated successfully"
    ensures body.Unreadable? ==> r == UpdateReply(Failure(ServerError(body.message)), None)
    ensures body.Fields? && |body.fields| > 0 && execute(UpdateStatement(userId, body.fields)).Raised? ==>
      r.result == Failure(ServerError(execute(UpdateStatement(userId, body.fields)).message))
  {
    match body
    case Unreadable(message) => UpdateReply(Failure(ServerError(message)), None)
    case Fields(fields) =>
      if |fields| == 0 then UpdateReply(Failure(ServerError(ExceptionText(400, "No profile data provided"))), None)
      else
        var st := UpdateStatement(userId, fields);
        match execute(st)
        case Raised(message) => UpdateReply(Failure(ServerError(message)), Some(st))
        case Done(_) => UpdateReply(Success("User profile updated successfully"), Some(st))
  }

  // ---------------------------------------------------------------------------
  // Placeholders

  /** The number of `%s` markers found scanning `s` left to right. */
  function Placeholders(s: string): nat
  {
    if |s| < 2 then 0
    else if s[0] == '%' && s[1] == 's' then 1 + Placeholders(s[2..])
    else Placeholders(s[1..])
  }

  /** The `%s` markers the body's keys themselves carry into the statement. */
  function KeyMarkers(fields: seq<Field>): nat
  {
    if |fields| == 0 then 0 else Placeholders(fields[0].0) + KeyMarkers(fields[1..])
  }

  lemma {:induction false} NoPercentNoPlaceholders(s: string)
    requires '%' !in s
    ensures Placeholders(s) == 0
  {
    if |s| >= 2 {
      assert '%' !in s[1..];
      NoPercentNoPlaceholders(s[1..]);
    }
  }

  /** Counting distributes over concatenation unless a `%` ending the left
      part meets an `s` starting the right part. */
  lemma {:induction false} PlaceholdersConcat(a: string, b: string)
    requires |a| == 0 || |b| == 0 || a[|a| - 1] != '%' || b[0] != 's'
    ensures Placeholders(a + b) == Placeholders(a) + Placeholders(b)
    decreases |a|
  {
    var s := a + b;
    if |a| == 1 {
      if |b| == 0 {
        assert s == a;
      } else {
        assert s[1..] == b;
      }
    } else if |a| >= 2 {
      if a[0] == '%' && a[1] == 's' {
        assert s[2..] == a[2..] + b;
        PlaceholdersConcat(a[2..], b);
      } else {
        assert s[1..] == a[1..] + b;
        PlaceholdersConcat(a[1..], b);
      }
    } else {
      assert s == b;
    }
  }

  /** An assignment holds its key's markers plus its own. */
  lemma AssignmentPlaceholders(key: string)
    ensures Placeholders(Assignment(key)) == Placeholders(key) + 1
  {
    MarkerAfter(" = ");
    assert Assignment(key) == key + (" = " + "%s");
    assert (" = " + "%s")[0] == ' ';
    PlaceholdersConcat(key, " = " + "%s");
  }

  /** The SET clause holds one marker per key plus those inside the keys. */
  lemma {:induction false} SetClausePlaceholders(fields: seq<Field>)
    ensures Placeholders(SetClause(fields)) == |fields| + KeyMarkers(fields)
    ensures |fields| > 0 ==> SetClause(fields)[|SetClause(fields)| - 1] == 's'
  {
    var parts := seq(|fields|, i requires 0 <= i < |fields| => Assignment(fields[i].0));
    if |fields| == 1 {
      AssignmentPlaceholders(fields[0].0);
      assert KeyMarkers(fields) == Placeholders(fields[0].0) + KeyMarkers(fields[1..]);
    } else if |fields| > 1 {
      SetClausePlaceholders(fields[1..]);
      assert parts[1..] == seq(|fields[1..]|, i requires 0 <= i < |fields[1..]| => Assignment(fields[1..][i].0));
      var rest := Join(parts[1..], ", ");
      assert SetClause(fields) == parts[0] + (", " + rest);
      AssignmentPlaceholders(fields[0].0);
      assert parts[0][|parts[0]| - 1] == 's';
      PlaceholdersConcat(parts[0], ", " + rest);
      PlaceholdersConcat(", ", rest);
      NoPercentNoPlaceholders(", ");
    }
  }

  lemma MarkerAfter(lead: string)
    requires '%' !in lead
    ensures Placeholders(lead + "%s") == 1
  {
    NoPercentNoPlaceholders(lead);
    if |lead| > 0 {
      assert lead[|lead| - 1] in lead;
    }
    PlaceholdersConcat(lead, "%s");
    assert Placeholders("%s") == 1 by { assert "%s"[2..] == ""; }
  }

  /** Text with no `%`, then `clause`, then text with no `%` and one marker. */
  lemma TemplatePlaceholders(sql: string, prefix: string, clause: string, lead: string, marker: string)
    requires sql == prefix + (clause + (lead + marker))
    requires '%' !in prefix && '%' !in lead && marker == "%s"
    requires |clause| == 0 || clause[|clause| - 1] == 's'
    ensures Placeholders(sql) == Placeholders(clause) + 1
  {
    MarkerAfter(lead);
    PlaceholdersConcat(clause, lead + marker);
    NoPercentNoPlaceholders(prefix);
    assert |prefix| == 0 || prefix[|prefix| - 1] != '%' by {
      if |prefix| > 0 {
        assert prefix[|prefix| - 1] in prefix;
      }
    }
    PlaceholdersConcat(prefix, clause + (lead + marker));
  }

  /** The statement text with the final marker written apart from the text before it. */
  lemma UpdateStatementText(userId: int, fields: seq<Field>)
    ensures UpdateStatement(userId, fields).sql == "UPDATE users SET " + (SetClause(fields) + (" where user_id = " + "%s"))
  {
    assert " where user_id = %s" == " where user_id = " + "%s";
  }

  /** Keys go into the SQL text verbatim: the statement holds one marker per
      bound value plus every marker inside a key. */
  lemma UpdatePlaceholdersCount(userId: int, fields: seq<Field>)
    ensures Placeholders(UpdateStatement(userId, fields).sql) == |UpdateStatement(userId, fields).params| + KeyMarkers(fields)
  {
    SetClausePlaceholders(fields);
    UpdateStatementText(userId, fields);
    TemplatePlaceholders(UpdateStatement(userId, fields).sql, "UPDATE users SET ", SetClause(fields), " where user_id = ", "%s");
  }

  lemma {:induction false} KeyMarkersZero(fields: seq<Field>)
    ensures KeyMarkers(fields) == 0 <==> forall i :: 0 <= i < |fields| ==> Placeholders(fields[i].0) == 0
  {
    if |fields| > 0 {
      KeyMarkersZero(fields[1..]);
      assert forall i :: 1 <= i < |fields| ==> fields[i] == fields[1..][i - 1];
    }
  }

  /** When no body key contains `%`, the statement has exactly one `%s` per
      bound value: one per key, plus the final `user_id`. */
  lemma UpdatePlaceholdersMatchParams(userId: int, fields: seq<Field>)
    requires forall i :: 0 <= i < |fields| ==> '%' !in fields[i].0
    ensures Placeholders(UpdateStatement(userId, fields).sql) == |UpdateStatement(userId, fields).params|
  {
    UpdatePlaceholdersCount(userId, fields);
    forall i | 0 <= i < |fields|
      ensures Placeholders(fields[i].0) == 0
    {
      NoPercentNoPlaceholders(fields[i].0);
    }
    KeyMarkersZero(fields);
  }

  /** The markers match the bound values exactly when no key holds a `%s`;
      a key that does leaves a marker with no value bound to it. */
  lemma KeyWithMarkerBreaksBinding(userId: int, fields: seq<Field>)
    ensures var st := UpdateStatement(userId, fields);
      Placeholders(st.sql) == |st.params| <==> forall i :: 0 <= i < |fields| ==> Placeholders(fields[i].0) == 0
    ensures var st := UpdateStatement(userId, fields);
      (exists i :: 0 <= i < |fields| && Placeholders(fields[i].0) > 0) ==> Placeholders(st.sql) > |st.params|
  {
    UpdatePlaceholdersCount(userId, fields);
    KeyMarkersZero(fields);
  }

  // ---------------------------------------------------------------------------
  // Key order

  /** The assignments as `", ".join` lays them out: the first as is, every
      later one after the space of its `", "` separator. */
  function SpacedAssignments(fields: seq<Field>): (parts: seq<string>)
    ensures |parts| == |fields|
  {
    seq(|fields|, i requires 0 <= i < |fields| => (if i == 0 then "" else " ") + Assignment(fields[i].0))
  }

  lemma JoinFirstPrefixed(x: string, a: string, rest: seq<string>, sep: string)
    ensures Join([x + a] + rest, sep) == x + Join([a] + rest, sep)
  {
    if |rest| > 0 {
      assert ([x + a] + rest)[1..] == rest;
      assert ([a] + rest)[1..] == rest;
    }
  }

  /** The clause of a longer body: the first assignment, `", "`, then the clause of the rest. */
  lemma SetClauseCons(fields: seq<Field>)
    requires |fields| > 1
    ensures SetClause(fields) == Assignment(fields[0].0) + (", " + SetClause(fields[1..]))
  {
    var tail := fields[1..];
    var parts := seq(|fields|, i requires 0 <= i < |fields| => Assignment(fields[i].0));
    assert parts[1..] == seq(|tail|, i requires 0 <= i < |tail| => Assignment(tail[i].0));
  }

  /** The spaced assignments of a longer body, in terms of those of the rest. */
  lemma SpacedAssignmentsCons(fields: seq<Field>)
    requires |fields| > 1
    ensures var spacedTail := SpacedAssignments(fields[1..]);
      && SpacedAssignments(fields)[0] == Assignment(fields[0].0)
      && SpacedAssignments(fields)[1..] == [" " + spacedTail[0]] + spacedTail[1..]
      && spacedTail[0] == Assignment(fields[1].0)
  {
    var spaced := SpacedAssignments(fields);
    var tail := fields[1..];
    var spacedTail := SpacedAssignments(tail);
    assert "" + Assignment(fields[0].0) == Assignment(fields[0].0);
    assert "" + Assignment(tail[0].0) == Assignment(tail[0].0);
    forall k | 0 <= k < |spaced| - 1
      ensures spaced[1..][k] == ([" " + spacedTail[0]] + spacedTail[1..])[k]
    {
      assert tail[k] == fields[k + 1];
    }
  }

  lemma {:induction false} SetClauseAsCommaJoin(fields: seq<Field>)
    requires |fields| > 0
    ensures SetClause(fields) == Join(SpacedAssignments(fields), ",")
  {
    if |fields| > 1 {
      var tail := fields[1..];
      SetClauseAsCommaJoin(tail);
      SetClauseCons(fields);
      SpacedAssignmentsCons(fields);
      var spaced := SpacedAssignments(fields);
      var spacedTail := SpacedAssignments(tail);
      JoinFirstPrefixed(" ", spacedTail[0], spacedTail[1..], ",");
      assert [spacedTail[0]] + spacedTail[1..] == spacedTail;
      calc {
        Join(spaced, ",");
        spaced[0] + "," + Join(spaced[1..], ",");
        Assignment(fields[0].0) + "," + (" " + Join(spacedTail, ","));
        Assignment(fields[0].0) + (", " + SetClause(tail));
      }
    }
  }

  /** The clause lists the body's keys in body order: when no key holds a comma,
      splitting it at commas gives back one `key = %s` per entry, in order. */
  lemma SetClauseListsKeysInOrder(fields: seq<Field>)
    requires |fields| > 0
    requires forall i :: 0 <= i < |fields| ==> ',' !in fields[i].0
    ensures Split(SetClause(fields), ',') == SpacedAssignments(fields)
  {
    SetClauseAsCommaJoin(fields);
    var parts := SpacedAssignments(fields);
    forall i | 0 <= i < |parts|
      ensures ',' !in parts[i]
    {
      assert parts[i] == (if i == 0 then "" else " ") + (fields[i].0 + " = %s");
    }
    SplitJoin(parts, ',');
  }
}

=== FILE: wrappers.dfy ===
/** Option and Result, the two failure-carrying shapes the rest of the model uses
    for Python's `None` returns and raised exceptions. */
module Wrappers {

  datatype Option<+T> = None | Some(value: T)

  datatype Result<+R, +E> = Success(value: R) | Failure(error: E)
}
